=== FILE: README.md ===
# Chingu company site: the logic behind the pages, in Dafny

The Chingu company site is a React marketing site. Almost all of it is
markup and styling. What it decides, as opposed to what it draws, is a
small set of selection rules and state machines, and this project models
those:

- **Transcendence listing** (`transcendence.dfy`). A case-insensitive
  free-text search over title, description and tags, combined with a phase
  drop-down. Also the phase chip style table and the results line.
- **Experience portfolio** (`experience.dfy`). The category tabs with
  their badge counts, the category filter, the media-type icon, the play
  button, and the open/close rules of the media modal.
- **Studio portfolio grid** (`portfolio_grid.dfy`). The fallback project
  list, the category buttons (duplicates removed, in first-occurrence
  order), the filter and the masonry heights.
- **Studio project showcase** (`project_showcase.dfy`). The tab-index
  filter and the 3D/preview choice on each card.
- **Navigation bar** (`navbar.dfy`). Which links are highlighted for a
  location, the scroll threshold, the mobile drawer and the two drop-down
  menus.
- **Project card** (`project_card.dfy`). The first three tags plus a
  `+N` chip on the card face, all tags in the modal, and the modal flag.
- **Contact form** (`contact.dfy`). Field updates, submit, the simulated
  send completing, and the message snackbars, as events on a state record.
  The two-second timer is the event `TimerFires`.
- **Hero animation** (`screensaver.dfy`). Particle edge resets, shape
  bounces beyond a 50-pixel margin, and rotation. Coordinates are reals,
  and each `Math.random()` draw is a parameter in [0, 1). Also how the
  frame loop is started and cancelled.

Three helper modules hold what the pages take from JavaScript:

- `wrappers.dfy` (`null`/`undefined` as `Option`);
- `seqs.dfy` (`Array.prototype.filter`, first-occurrence de-duplication as
  `new Set` does it);
- `text.dfy` (`toLowerCase`, `toUpperCase`, `includes`, `startsWith`,
  number-to-text).

Two behaviours of the animation code are worth knowing when reading the
model:

- **Particles are reset to an edge, not wrapped modulo the canvas size.**
  A particle that leaves the canvas is put exactly on the opposite edge
  (`ScreenSaver.ResetIsNotModulo`): at 799 moving 5 on an 800-pixel axis
  the code gives 0, where a modulo wrap would give 4.
- **Rotation grows without bound.** Each frame adds the turning speed and
  the angle is never reduced modulo 2π (`ScreenSaver.RotationAccumulates`).

## Model

| member | source | states |
|---|---|---|
| Seqs.Filter | src/pages/chingu-trans.jsx:347-355 | `filter` keeps an order-preserving sublist, no longer than its input, whose every element passes the test |
| Seqs.FilterMembership | src/pages/chingu-trans.jsx:347-355 | a value is in the filtered list iff it is in the input and passes the test |
| Seqs.FilterKeepsMultiplicity | src/pages/chingu-trans.jsx:347-355 | every element that survives `filter` appears in the result exactly as often as in the input |
| Seqs.FilterIdempotent | src/pages/chingu-trans.jsx:347-355 | filtering a filtered list again with the same test changes nothing |
| Seqs.FilterPartition | src/components/Chingu-Studio/ProjectShowcase.jsx:103-105 | when exactly one of two tests holds for each element, the two filtered lists together hold every element exactly once (as multisets) |
| Seqs.Dedup | src/components/Chingu-Studio/PortfolioGrid.jsx:65 | de-duplication as `new Set` does it: no repeats, the same set of values, values ordered by where they first occur |
| Text.Lower | src/pages/chingu-trans.jsx:348-350 | `toLowerCase` keeps the length, replaces each ASCII capital by its own lower-case letter (code point plus 32) and keeps every other character |
| Text.Upper | src/pages/chingu-exp.jsx:109 | `toUpperCase` (the card's category chip here, and the modal's chip at chingu-exp.jsx:546) keeps the length, replaces each ASCII lower-case letter by its own capital (code point minus 32) and keeps every other character |
| Text.Includes | src/pages/chingu-trans.jsx:348-350 | `includes` is true iff the needle occurs at some index of the haystack |
| Text.IncludesEmpty | src/pages/chingu-trans.jsx:348-350 | every string includes the empty string |
| Text.StartsWith | src/components/Navbar/navbar.jsx:126 | `startsWith` is true iff the string is at least as long as the prefix and agrees with it at every index of the prefix |
| Text.StartsWithDisjoint | src/components/Navbar/navbar.jsx:126 | two paths that differ at a common index cannot both prefix one location |
| Text.DecimalString | src/components/projectCard.jsx:166 | the number in the `+N` chip is written as a non-empty run of decimal digits with no leading zero unless it is 0 |
| Text.DecimalRoundTrip | src/components/projectCard.jsx:166 | the digits written for the `+N` chip read back as N |
| Transcendence.PhaseStyle | src/pages/chingu-trans.jsx:124-138 | Programming is info/outlined, Schematic Design primary/filled, Design Development secondary/outlined, Construction Documents warning/filled, Construction error/filled, Post-Occupancy success/filled; any other phase name (none occurs in the page) gets the outlined default chip |
| Transcendence.EachPhaseOwnColor | src/pages/chingu-trans.jsx:124-131 | no two of the six drop-down phases share a chip colour |
| Transcendence.PhasesAllStyled | src/pages/chingu-trans.jsx:41-131 | every selectable phase and every project's phase has its own chip style; 'All Phases' has none |
| Transcendence.FilteredProjects | src/pages/chingu-trans.jsx:346-356 | a project is listed iff the lower-cased term occurs in its lower-cased title, description or some tag, and the phase is 'All Phases' or equal to it; the listing is a sublist of the projects, in order; each listed entry appears as often as in the input |
| Transcendence.EmptySearchMatchesAll | src/pages/chingu-trans.jsx:348-350 | an empty search term matches every project |
| Transcendence.EmptySearchAllPhases | src/pages/chingu-trans.jsx:341-356 | with an empty search and 'All Phases' (the initial settings) every project is listed |
| Transcendence.EmptySearchByPhase | src/pages/chingu-trans.jsx:352 | with an empty search, a phase other than 'All Phases' keeps exactly the projects of that phase |
| Transcendence.SearchCaseInsensitive | src/pages/chingu-trans.jsx:348-350 | two terms with the same lower-case form give the same listing |
| Transcendence.SearchIgnoresTermCase | src/pages/chingu-trans.jsx:348-350 | lower-casing the typed term never changes the listing |
| Transcendence.FilterTwiceIsOnce | src/pages/chingu-trans.jsx:346-356 | filtering the listing again with the same settings changes nothing |
| Transcendence.ResultsSummary | src/pages/chingu-trans.jsx:503-521 | the empty-state panel shows iff the count is 0, iff no project passes both tests; the phase note appears iff a phase is selected |
| Transcendence.SummaryCountsCards | src/pages/chingu-trans.jsx:503-512 | the count shown is the number of cards listed |
| Experience.OfCategory | src/pages/chingu-exp.jsx:64-72 | the items of one category: exactly the items with that category, in order; each listed entry appears as often as in the input |
| Experience.FilteredItems | src/pages/chingu-exp.jsx:70-72 | 'all' returns the items unchanged; any other id returns exactly the items of that category, in order; each listed entry appears as often as in the input |
| Experience.CategoryCount | src/pages/chingu-exp.jsx:64-67 | a badge equals the number of items whose category is that tab's id (the multiplicity of the id among the items' categories), which is the length of the tab's filter; it is 0 iff no item has that category |
| Experience.CountIsMultiplicity | src/pages/chingu-exp.jsx:64-67 | the length of a category's filter equals the number of items carrying that category |
| Experience.Tabs | src/pages/chingu-exp.jsx:62-68 | five tabs, 'all' first counting every item; each badge equals the length of the list that tab selects |
| Experience.CountsSumToTotal | src/pages/chingu-exp.jsx:63-67 | when every item is in one of the four categories, the four badges add up to the 'All Work' badge |
| Experience.PageCounts | src/pages/chingu-exp.jsx:10-67 | the page's own six items are all in one of the four categories, so the four badges add up to six |
| Experience.GetMediaIcon | src/pages/chingu-exp.jsx:74-79 | VR icon iff the category is vr; the tools icon iff it is physical; the video icon only for a video in another category; the camera otherwise |
| Experience.VrVideoShowsGoggles | src/pages/chingu-exp.jsx:74-79 | a VR video gets the VR icon, and a rendered video gets the video icon |
| Experience.MediaCardFace | src/pages/chingu-exp.jsx:98-109 | the icon follows `getMediaIcon`; the play button shows iff the type is 'video'; the chip is the category upper-cased |
| Experience.SelectMedia | src/pages/chingu-exp.jsx:87-519 | a card click selects that item (line 87); the close button or the overlay clears the selection (lines 515-519); a click inside the content leaves it alone |
| Experience.CloseIdempotent | src/pages/chingu-exp.jsx:515-519 | closing twice is closing once, and a closed modal stays closed |
| Experience.ModalView | src/pages/chingu-exp.jsx:514-540 | the modal shows iff something is selected, with a video player iff the selection is a video |
| PortfolioGrid.DisplayProjects | src/components/Chingu-Studio/PortfolioGrid.jsx:59 | a non-empty `projects` prop is used as given, otherwise the six defaults; never empty |
| PortfolioGrid.Categories | src/components/Chingu-Studio/PortfolioGrid.jsx:65 | 'All', then every category used by some project exactly once, ordered by first occurrence |
| PortfolioGrid.FilteredProjects | src/components/Chingu-Studio/PortfolioGrid.jsx:68-70 | 'All' returns every displayed project; any other category returns exactly the projects of that category, in order; each listed entry appears as often as in the input |
| PortfolioGrid.EveryTabNonEmpty | src/components/Chingu-Studio/PortfolioGrid.jsx:59-70 | every category button selects at least one project |
| PortfolioGrid.InitialViewShowsAll | src/components/Chingu-Studio/PortfolioGrid.jsx:62-70 | at first render the 'All' button is one of the buttons and active, and every displayed project is shown |
| PortfolioGrid.ExactlyOneActiveButton | src/components/Chingu-Studio/PortfolioGrid.jsx:169-172 | when the active category is one of the buttons, exactly one button is highlighted |
| PortfolioGrid.ImageHeight | src/components/Chingu-Studio/PortfolioGrid.jsx:132-135 | the height for card `i` is the `i mod 6`-th listed height, so always one of the six |
| PortfolioGrid.ImageHeightPeriodic | src/components/Chingu-Studio/PortfolioGrid.jsx:132-135 | the heights repeat every six cards |
| ProjectShowcase.FilteredProjects | src/components/Chingu-Studio/ProjectShowcase.jsx:101-105 | tab 0 gives every project; any other tab gives exactly the projects whose category is that tab's caption, in order; each listed entry appears as often as in the input |
| ProjectShowcase.TabIsOfCategory | src/components/Chingu-Studio/ProjectShowcase.jsx:103-105 | a tab other than the first shows exactly the projects whose category is that tab's caption |
| ProjectShowcase.BrandIdentityTabEmpty | src/components/Chingu-Studio/ProjectShowcase.jsx:49-105 | the 'Brand Identity' tab is empty, since no project has that category |
| ProjectShowcase.TwoCategoriesPartition | src/components/Chingu-Studio/ProjectShowcase.jsx:103-105 | when every project is in one of two different categories, their two tabs together show every project exactly once |
| ProjectShowcase.UiDesignProjects | src/components/Chingu-Studio/ProjectShowcase.jsx:49-105 | the 'UI Design' projects are the first, third and fifth |
| ProjectShowcase.ProductDesignProjects | src/components/Chingu-Studio/ProjectShowcase.jsx:49-105 | the 'Product Design' projects are the second, fourth and sixth |
| ProjectShowcase.PageSplitsInTwo | src/components/Chingu-Studio/ProjectShowcase.jsx:49-97 | every project on the page is in 'UI Design' or 'Product Design' |
| ProjectShowcase.UiAndProductPartition | src/components/Chingu-Studio/ProjectShowcase.jsx:49-105 | tabs 1 and 2 split the six projects three and three, each project shown exactly once |
| ProjectShowcase.CardMediaOf | src/components/Chingu-Studio/ProjectShowcase.jsx:203 | a 3D canvas is shown iff the project has 3D |
| Navbar.IsActive | src/components/Navbar/navbar.jsx:122-127 | the root link is active only on '/'; any other link is active iff the location is its path followed by any suffix |
| Navbar.AboutActiveOnAboutUs | src/components/Navbar/navbar.jsx:126 | 'About' is highlighted on '/aboutus' too, and 'Home' is not |
| Navbar.ActiveOnDeeperPath | src/components/Navbar/navbar.jsx:126 | a link highlighted at a location stays highlighted at every deeper location |
| Navbar.ServicesActiveWithServiceItem | src/components/Navbar/navbar.jsx:109-113 | whenever a service item is highlighted, so is the 'Services' entry |
| Navbar.AtMostOneNavItemActive | src/components/Navbar/navbar.jsx:103-127 | no two of the three main links are highlighted at once |
| Navbar.AtMostOneServiceItemActive | src/components/Navbar/navbar.jsx:109-127 | no two of the three service items are highlighted at once |
| Navbar.NotActiveWhenDiffer | src/components/Navbar/navbar.jsx:122-127 | a location that differs from a non-root link's path at a shared index does not highlight that link |
| Navbar.UserPageHighlightsNoLink | src/components/Navbar/navbar.jsx:103-127 | on the profile, login and logout pages no main link, no service item and not 'Services' is highlighted |
| Navbar.ScrollWrite | src/components/Navbar/navbar.jsx:68-73 | the handler writes iff `scrollY > 20` differs from `scrolled`, and then writes that value |
| Navbar.Step | src/components/Navbar/navbar.jsx:61-100 | a scroll leaves `scrolled` equal to `scrollY > 20`; the toggle negates the drawer; a menu opens iff its anchor is set; each event changes only its own field |
| Navbar.DrawerToggleTwice | src/components/Navbar/navbar.jsx:98-100 | two drawer toggles restore the drawer |
| Navbar.DrawerFollowsToggles | src/components/Navbar/navbar.jsx:62-100 | after any run of events the drawer has flipped once per toggle and no other event moves it |
| Navbar.DrawerOpenIffOddToggles | src/components/Navbar/navbar.jsx:61-100 | the bar starts unscrolled with drawer and menus closed; from there the drawer is open iff it was toggled an odd number of times |
| Navbar.ScrollSettles | src/components/Navbar/navbar.jsx:69-72 | a second scroll to the same offset writes nothing |
| Navbar.CloseIdempotent | src/components/Navbar/navbar.jsx:86-96 | closing a menu twice is closing it once; closing a closed menu changes nothing |
| ProjectCard.FaceChips | src/components/projectCard.jsx:156-170 | missing tags show nothing; otherwise the first `min(n, 3)` tags in order, then a `+N` chip iff `n > 3`, as the last chip, whose caption is `+` followed by the decimal digits of `n - 3` |
| ProjectCard.ModalTags | src/components/projectCard.jsx:232 | the modal lists every tag in order, and nothing when the prop is missing (`tags?.map`) |
| ProjectCard.FaceAccountsForEveryTag | src/components/projectCard.jsx:157-166 | the tag chips on the face plus the number on the `+N` chip equal the number of tags the modal lists |
| ProjectCard.FaceTagsLeadModalTags | src/components/projectCard.jsx:157 | every tag chip on the face is the tag at the same position in the modal's list |
| ProjectCard.ModalOpen | src/components/projectCard.jsx:115-123 | the modal is open after an event iff that event was the expand button |
| ProjectCard.ModalEventsIdempotent | src/components/projectCard.jsx:117-123 | repeating an open or close changes nothing more |
| Contact.HandleChange | src/pages/Contact.jsx:53-59 | the named field takes the new value and the other four keep theirs |
| Contact.HandleChangeLastWins | src/pages/Contact.jsx:53-59 | a second edit of a field overrides the first; writing back a field's own value changes nothing |
| Contact.HandleSubmit | src/pages/Contact.jsx:61-66 | submit turns on the spinner and starts one timer; the form and messages are unchanged |
| Contact.Complete | src/pages/Contact.jsx:66-76 | the timer stops the spinner, opens the success message and empties all five fields, leaving `error` alone |
| Contact.CloseSnackbar | src/pages/Contact.jsx:79-82 | both messages close; the form and spinner are unchanged |
| Contact.CloseSnackbarIdempotent | src/pages/Contact.jsx:79-82 | closing the messages twice is closing them once |
| Contact.RequiredFilled | src/pages/Contact.jsx:305-392 | the form passes the `required` check iff every field except the service choice is non-empty |
| Contact.SubmitEnabled | src/pages/Contact.jsx:404 | the send button is enabled iff nothing is being sent; in a reachable state, iff no send timer is pending |
| Contact.Step | src/pages/Contact.jsx:53-82 | no event raises `error`; a change sets its field and nothing else; a submit starts a send (spinner on, one more timer, all else unchanged) iff the button is enabled and the required fields pass validation, and otherwise changes nothing; a firing timer stops the spinner, opens the success message and empties the form; closing the snackbar clears both messages only |
| Contact.StepKeepsGood | src/pages/Contact.jsx:38-82 | every event keeps `error` down, at most one send in flight, and the spinner on exactly while one is |
| Contact.RunKeepsGood | src/pages/Contact.jsx:38-82 | the same holds after any run of events |
| Contact.ErrorNeverShown | src/pages/Contact.jsx:38-82 | from the initial state the error message never opens, and the send button is disabled exactly while a send is in flight |
| Contact.SendClearsForm | src/pages/Contact.jsx:61-76 | submitting a filled-in form and letting the timer fire leaves the success message open, the spinner off and every field empty |
| Contact.SubmitIgnoredWhileLoading | src/pages/Contact.jsx:404 | a submit while sending does nothing |
| ScreenSaver.NewShape | src/components/screenSaver.jsx:78-88 | a new shape is on the canvas, 20 to 60 wide, at an angle below a full turn, turning at most 0.005 and moving at most 0.15 per axis per frame |
| ScreenSaver.Scale | src/components/screenSaver.jsx:78-79 | a draw times the canvas width or height is a point on that axis, 0 for a zero draw |
| ScreenSaver.NewParticle | src/components/screenSaver.jsx:91-98 | a new particle is on the canvas and moves at most 0.1 per axis per frame |
| ScreenSaver.WrapAxis | src/components/screenSaver.jsx:134-141 | after a particle step the coordinate is within the canvas: the exact move when that stays inside, else the opposite edge |
| ScreenSaver.ResetIsNotModulo | src/components/screenSaver.jsx:138-141 | 799 moving 5 on an 800 axis gives 0, not 4; leaving below 0 gives the far edge |
| ScreenSaver.StepParticle | src/components/screenSaver.jsx:133-141 | each coordinate moves by its velocity; leaving below 0 puts it on the far edge and leaving past the far edge puts it at 0, so the particle stays on the canvas; only the position changes |
| ScreenSaver.ParticleMovesByVelocity | src/components/screenSaver.jsx:134-135 | a particle at least one step inside the canvas moves by exactly its velocity |
| ScreenSaver.BounceAxis | src/components/screenSaver.jsx:153-159 | a shape moves by its velocity; the velocity is reversed iff the new position is beyond the margin; speed is unchanged and the position is not clamped |
| ScreenSaver.ContainedBounds | src/components/screenSaver.jsx:158-159 | a shape within the margin or heading back is at most one step beyond the margin |
| ScreenSaver.BounceKeepsContained | src/components/screenSaver.jsx:153-159 | one frame keeps a shape within the margin or at most one step beyond it and heading back |
| ScreenSaver.StepShape | src/components/screenSaver.jsx:151-159 | both axes bounce, and the angle grows by the turning speed with no reduction modulo a full turn |
| ScreenSaver.NewScene | src/components/screenSaver.jsx:78-98 | the effect builds six contained shapes and fifteen particles on the canvas from its draws |
| ScreenSaver.Frame | src/components/screenSaver.jsx:133-163 | a frame keeps the canvas size and the counts, steps every shape by its bounce-and-turn and every particle by its move-and-reset, so every particle stays on the canvas and every shape turns by its speed |
| ScreenSaver.FrameKeepsWellFormed | src/components/screenSaver.jsx:133-163 | a frame keeps six contained shapes and fifteen particles on the canvas |
| ScreenSaver.FramesKeepWellFormed | src/components/screenSaver.jsx:125-165 | the same holds after any number of frames |
| ScreenSaver.RotationAccumulates | src/components/screenSaver.jsx:155 | after `n` frames a shape's angle is its start angle plus `n` times its turning speed |
| ScreenSaver.SpeedPreserved | src/components/screenSaver.jsx:158-159 | frames never change a shape's speed on either axis |
| ScreenSaver.ShapesStayNearCanvas | src/components/screenSaver.jsx:78-159 | from any fresh scene no shape ever gets more than 50.15 beyond a canvas edge, and the counts stay six and fifteen |
| ScreenSaver.StartLoop | src/components/screenSaver.jsx:168 | the effect schedules the first frame and keeps its id |
| ScreenSaver.FrameAsWritten | src/components/screenSaver.jsx:165 | each frame schedules the next under a new id, which is not kept |
| ScreenSaver.Cleanup | src/components/screenSaver.jsx:170-172 | the cleanup stops the loop iff the kept id is the one scheduled |
| ScreenSaver.CleanupAfterFrameMissesLoop | src/components/screenSaver.jsx:165-172 | after one frame the cleanup cancels a spent id and the loop keeps running |
| ScreenSaver.FrameKeepingId | src/components/screenSaver.jsx:165-171 | a frame that schedules the next frame under a fresh id (the counter advances by one) and keeps that id for the cleanup |
| ScreenSaver.KeptIdIsScheduled | src/components/screenSaver.jsx:165-171 | with the id kept up to date, the scheduled frame is always the kept one |
| ScreenSaver.CleanupStopsLoop | src/components/screenSaver.jsx:165-172 | with the id kept up to date, the cleanup stops the loop however many frames have run |

## Left out

- Markup, styling, layout, icons, theme colours and animations
  (framer-motion, MUI transitions). They have no behaviour to state.
- Transcendence.PhaseStyle: treats the colour table as a plain map. In the
  page a phase named after an inherited object property (`constructor`,
  `toString`) finds a truthy entry and its chip gets no colour or variant,
  which renders as a filled default chip, not the outlined one. No phase in
  the page's data or its drop-down has such a name.
- Text.Lower: maps the ASCII letters only, both in the page data and in the
  typed search term. JavaScript's `toLowerCase` also maps other Unicode
  letters (the Kelvin sign U+212A becomes 'k'), so a non-ASCII term can
  match in the browser where the model finds nothing.
- Text.Upper: maps the ASCII letters only. It is applied only to the
  category ids, which are ASCII.
- The browser's check that the email field looks like an address. It is
  the `emailAccepted` flag of the `Submit` event, not a syntax rule.
- The two-second delay in `handleSubmit`. Only the order of events is
  modelled: the timer firing is the `TimerFires` event.
- The snackbars' six-second auto-hide. It is one more way the
  `SnackbarClose` event arrives.
- `Math.random()`: each draw is a parameter in [0, 1).
- IEEE rounding: coordinates, speeds and angles are exact reals.
- The canvas drawing calls and the unused `time` counter in the
  animation.
- The `isConnected` test that ends the loop when the canvas leaves the
  page: the loop model covers start, frames and cleanup only.
- The resize listener that re-runs the animation effect: the loop model
  covers one run of the effect and its cleanup.
- `ProjectShowcase`'s `expanded` state: it is declared but never read.
- Which element a menu hangs from: a number stands in for the DOM element.
- React's batching and re-render timing: each handler's writes are applied
  at once, in event order.
- `PortfolioGrid.ExactlyOneActiveButton`: assumes no project's category is
  literally 'All'. If one were, the code would show two 'All' buttons and
  both would be highlighted together.
- The routing in `src/App.jsx`, `InteractiveCanvas.jsx`,
  `ParallaxBanner.jsx` and the purely presentational components and pages.
  They are not part of this model.

## Findings

| source | as written | input that shows it | evidently intended | confidence | as-written member | corrected member |
|---|---|---|---|---|---|---|
| src/components/screenSaver.jsx:165-172 | the cleanup cancels the id of the first frame request only; every later frame requests the next frame under a new id that is never kept | start the effect, let one frame run, then resize the window: the cleanup cancels the spent first id, and the old loop keeps running beside the new one | the cleanup stops the loop whatever frame it is on, so at most one loop runs | not executed | ScreenSaver.CleanupAfterFrameMissesLoop | ScreenSaver.CleanupStopsLoop |

=== FILE: contact.dfy ===
/**
 * The contact page form (`src/pages/Contact.jsx`): five text fields, the
 * `loading`, `success` and `error` flags, and the handlers that change them.
 * The simulated two-second send is a timer; its firing is the event
 * `TimerFires`, and the state counts the timers still pending.
 */
module Contact {

  datatype Field = Name | Email | Subject | Message | Service

  datatype FormData = FormData(name: string, email: string, subject: string, message: string, service: string)

  const EmptyForm: FormData := FormData("", "", "", "", "")

  /** The value of one field (`formData[name]`). */
  function Get(form: FormData, f: Field): string
  {
    match f
    case Name => form.name
    case Email => form.email
    case Subject => form.subject
    case Message => form.message
    case Service => form.service
  }

  /** Two forms are equal iff they agree on every field. */
  lemma FormExtensional(a: FormData, b: FormData)
    requires forall f :: Get(a, f) == Get(b, f)
    ensures a == b
  {
    assert Get(a, Name) == Get(b, Name) && Get(a, Email) == Get(b, Email);
    assert Get(a, Subject) == Get(b, Subject) && Get(a, Message) == Get(b, Message);
    assert Get(a, Service) == Get(b, Service);
  }

  /** `handleChange` for the input named `f` now holding `value`: that field
      takes the value and the other four keep theirs. */
  function HandleChange(form: FormData, f: Field, value: string): (r: FormData)
    ensures Get(r, f) == value
    ensures forall g :: g != f ==> Get(r, g) == Get(form, g)
  {
    match f
    case Name => form.(name := value)
    case Email => form.(email := value)
    case Subject => form.(subject := value)
    case Message => form.(message := value)
    case Service => form.(service := value)
  }

  /** Writing a field twice keeps only the second value, and writing back
      the value a field already holds changes nothing. */
  lemma HandleChangeLastWins(form: FormData, f: Field, v: string, w: string)
    ensures HandleChange(HandleChange(form, f, v), f, w) == HandleChange(form, f, w)
    ensures HandleChange(form, f, Get(form, f)) == form
  {
    FormExtensional(HandleChange(HandleChange(form, f, v), f, w), HandleChange(form, f, w));
    FormExtensional(HandleChange(form, f, Get(form, f)), form);
  }

  /** The page's state; `pendingTimers` counts the send timers not yet fired. */
  datatype ContactState = ContactState(
    form: FormData,
    loading: bool,
    success: bool,
    error: bool,
    pendingTimers: nat)

  const Init: ContactState := ContactState(EmptyForm, false, false, false, 0)

  /** `handleSubmit`: shows the spinner and starts the send timer; nothing
      else changes yet. */
  function HandleSubmit(s: ContactState): (t: ContactState)
    ensures t.loading
    ensures t.pendingTimers == s.pendingTimers + 1
    ensures t.form == s.form && t.success == s.success && t.error == s.error
  {
    s.(loading := true, pendingTimers := s.pendingTimers + 1)
  }

  /** The send timer firing: the spinner stops, the success message opens and
      every field is cleared; `error` is left alone. */
  function Complete(s: ContactState): (t: ContactState)
    requires s.pendingTimers > 0
    ensures !t.loading && t.success
    ensures forall f :: Get(t.form, f) == ""
    ensures t.error == s.error
    ensures t.pendingTimers == s.pendingTimers - 1
  {
    s.(loading := false, success := true, form := EmptyForm, pendingTimers := s.pendingTimers - 1)
  }

  /** `handleCloseSnackbar`: both messages close; the form is untouched. */
  function CloseSnackbar(s: ContactState): (t: ContactState)
    ensures !t.success && !t.error
    ensures t.form == s.form && t.loading == s.loading && t.pendingTimers == s.pendingTimers
  {
    s.(success := false, error := false)
  }

  /** Closing the messages twice is the same as closing them once. */
  lemma CloseSnackbarIdempotent(s: ContactState)
    ensures CloseSnackbar(CloseSnackbar(s)) == CloseSnackbar(s)
  {
  }

  /** The fields marked `required`: every one except the service choice. */
  function RequiredFilled(form: FormData): (r: bool)
    ensures r <==> forall f :: f != Service ==> Get(form, f) != ""
  {
    assert Get(form, Name) == form.name && Get(form, Email) == form.email;
    assert Get(form, Subject) == form.subject && Get(form, Message) == form.message;
    form.name != "" && form.email != "" && form.subject != "" && form.message != ""
  }

  /** The send button is enabled iff nothing is being sent (`disabled={loading}`);
      in every reachable state that is iff no send timer is pending. */
  function SubmitEnabled(s: ContactState): (r: bool)
    ensures r <==> !s.loading
    ensures Good(s) ==> (r <==> s.pendingTimers == 0)
  {
    !s.loading
  }

  datatype ContactEvent =
    | Change(field: Field, value: string)
      // the user edits one input
    | Submit(emailAccepted: bool)
      // the user sends the form; `emailAccepted` is the browser's verdict on
      // the syntax of the email field
    | TimerFires
      // the oldest pending send timer fires
    | SnackbarClose
      // a message's close button, or its six-second auto-hide

  /** The state after one event. The browser submits only when the send
      button is enabled and the form passes its built-in validation; a timer
      fires only when one is pending. */
  function Step(s: ContactState, e: ContactEvent): (t: ContactState)
    ensures t.error ==> s.error
    ensures e.Change? ==> Get(t.form, e.field) == e.value
    ensures e.Change? ==> forall g :: g != e.field ==> Get(t.form, g) == Get(s.form, g)
    ensures e.Change? ==> t == s.(form := t.form)
    ensures e.Submit? ==>
      (t.pendingTimers > s.pendingTimers <==> !s.loading && RequiredFilled(s.form) && e.emailAccepted)
    ensures e.Submit? && t.pendingTimers > s.pendingTimers ==>
      t == s.(loading := true, pendingTimers := s.pendingTimers + 1)
    ensures e.Submit? && t.pendingTimers <= s.pendingTimers ==> t == s
    ensures e.TimerFires? && s.pendingTimers > 0 ==>
      t == s.(loading := false, success := true, form := EmptyForm, pendingTimers := s.pendingTimers - 1)
    ensures e.TimerFires? && s.pendingTimers == 0 ==> t == s
    ensures e.SnackbarClose? ==> t == s.(success := false, error := false)
  {
    match e
    case Change(f, v) => s.(form := HandleChange(s.form, f, v))
    case Submit(ok) => if SubmitEnabled(s) && RequiredFilled(s.form) && ok then HandleSubmit(s) else s
    case TimerFires => if s.pendingTimers > 0 then Complete(s) else s
    case SnackbarClose => CloseSnackbar(s)
  }

  /** The state after a run of events, oldest first. */
  function Run(s: ContactState, events: seq<ContactEvent>): ContactState
    decreases |events|
  {
    if |events| == 0 then s else Run(Step(s, events[0]), events[1..])
  }

  /** What every reachable state satisfies: the error flag is down, at most
      one send is in flight, and the spinner shows exactly while it is. */
  predicate Good(s: ContactState)
  {
    !s.error && s.pendingTimers <= 1 && (s.loading <==> s.pendingTimers == 1)
  }

  /** Every event keeps the page in a good state. */
  lemma StepKeepsGood(s: ContactState, e: ContactEvent)
    requires Good(s)
    ensures Good(Step(s, e))
  {
  }

  /** Every run of events from a good state ends in a good state. */
  lemma {:induction false} RunKeepsGood(s: ContactState, events: seq<ContactEvent>)
    requires Good(s)
    ensures Good(Run(s, events))
    decreases |events|
  {
    if |events| > 0 {
      StepKeepsGood(s, events[0]);
      RunKeepsGood(Step(s, events[0]), events[1..]);
    }
  }

  /** No handler ever raises `error`, so the error message never opens, and
      the send button is disabled exactly while a send is in flight. */
  lemma ErrorNeverShown(events: seq<ContactEvent>)
    ensures !Run(Init, events).error
    ensures !SubmitEnabled(Run(Init, events)) <==> Run(Init, events).pendingTimers == 1
  {
    RunKeepsGood(Init, events);
  }

  /** A complete send from a filled-in form: after submitting and the timer
      firing, the success message is open, the spinner is gone and every
      field is empty. */
  lemma SendClearsForm(s: ContactState)
    requires Good(s) && !s.loading && RequiredFilled(s.form)
    ensures var t := Run(s, [Submit(true), TimerFires]);
      t.success && !t.loading && t.form == EmptyForm && Good(t)
  {
    var t := Run(s, [Submit(true), TimerFires]);
    assert [Submit(true), TimerFires][1..] == [TimerFires];
    RunKeepsGood(s, [Submit(true), TimerFires]);
  }

  /** A second submit while a send is in flight does nothing. */
  lemma SubmitIgnoredWhileLoading(s: ContactState, ok: bool)
    requires s.loading
    ensures Step(s, Submit(ok)) == s
  {
  }
}

=== FILE: experience.dfy ===
/**
 * The Experience portfolio (`src/pages/chingu-exp.jsx`): category tabs with
 * badge counts, the category filter, the media-type icon and play button on
 * each card, and the open/close rules of the media modal.
 */
module Experience {
  import opened Wrappers
  import opened Seqs
  import opened Text

  /** A portfolio entry; `mediaType` is the source's `type` field. */
  datatype MediaItem = MediaItem(
    id: nat,
    title: string,
    category: string,
    mediaType: string,
    description: string)

  const PortfolioItems: seq<MediaItem> := [
    MediaItem(1, "Architectural VR Walkthrough", "vr", "video", "Immersive VR experience for residential complex"),
    MediaItem(2, "Parametric Building Design", "3d", "model", "Generative design for sustainable architecture"),
    MediaItem(3, "Product Prototype Series", "physical", "image", "CNC machined functional prototypes"),
    MediaItem(4, "Interior Visualization", "render", "image", "Photorealistic interior rendering"),
    MediaItem(5, "Urban Planning VR", "vr", "video", "City-scale VR planning tool"),
    MediaItem(6, "Fabrication Details", "physical", "image", "Precision manufacturing processes")
  ]

  /** The tab id that disables filtering. */
  const AllId: string := "all"

  /** The tab ids other than 'all', in tab order. */
  const CategoryIds: seq<string> := ["render", "vr", "3d", "physical"]

  predicate InCategory(item: MediaItem, category: string)
  {
    item.category == category
  }

  /** `items.filter(item => item.category === category)`. */
  function OfCategory(items: seq<MediaItem>, category: string): (r: seq<MediaItem>)
    ensures forall it :: it in r <==> it in items && it.category == category
    ensures forall i :: 0 <= i < |r| ==> r[i].category == category
    ensures forall it :: it in r ==> multiset(r)[it] == multiset(items)[it]
    ensures Sublist(r, items)
  {
    FilterMembership(items, (it: MediaItem) => InCategory(it, category));
    FilterKeepsMultiplicity(items, (it: MediaItem) => InCategory(it, category));
    Filter(items, (it: MediaItem) => InCategory(it, category))
  }

  /** Counting the items of a category one item at a time. */
  lemma OfCategoryCons(items: seq<MediaItem>, category: string)
    requires |items| > 0
    ensures |OfCategory(items, category)|
         == (if items[0].category == category then 1 else 0) + |OfCategory(items[1..], category)|
  {
  }

  /** `filteredItems`: every item for 'all'; otherwise the items of exactly
      that category, in their original order. */
  function FilteredItems(items: seq<MediaItem>, selected: string): (r: seq<MediaItem>)
    ensures selected == AllId ==> r == items
    ensures selected != AllId ==> forall it :: it in r <==> it in items && it.category == selected
    ensures selected != AllId ==> forall i :: 0 <= i < |r| ==> r[i].category == selected
    ensures forall it :: it in r ==> multiset(r)[it] == multiset(items)[it]
    ensures Sublist(r, items)
  {
    if selected == AllId then
      assert Sublist(items, items) by { FilterAllPass(items, (it: MediaItem) => true); }
      items
    else OfCategory(items, selected)
  }

  /** One category tab: id, caption and badge count. */
  datatype Tab = Tab(id: string, caption: string, count: nat)

  /** The categories of `items`, one entry per item, in order. */
  function ItemCategories(items: seq<MediaItem>): seq<string>
  {
    if |items| == 0 then [] else [items[0].category] + ItemCategories(items[1..])
  }

  /** Number of items of one category (`items.filter(...).length`): how many
      entries of the item list carry that category. */
  function CategoryCount(items: seq<MediaItem>, category: string): (n: nat)
    ensures n == multiset(ItemCategories(items))[category]
    ensures n == |OfCategory(items, category)|
    ensures n <= |items|
    ensures n == 0 <==> forall it :: it in items ==> it.category != category
  {
    CountIsMultiplicity(items, category);
    |OfCategory(items, category)|
  }

  /** The length of a category's filter is the number of times that category
      occurs among the items' categories. */
  lemma {:induction false} CountIsMultiplicity(items: seq<MediaItem>, category: string)
    ensures |OfCategory(items, category)| == multiset(ItemCategories(items))[category]
  {
    if |items| > 0 {
      OfCategoryCons(items, category);
      CountIsMultiplicity(items[1..], category);
    }
  }

  /** Tab captions, parallel to `CategoryIds`. */
  const Captions: seq<string> := ["Renders", "VR", "3D Models", "Physical"]

  /** The tab for the `k`-th category id, whose badge counts that category. */
  function CategoryTab(items: seq<MediaItem>, k: nat): (t: Tab)
    requires k < |CategoryIds|
    ensures t.id == CategoryIds[k] && t.id != AllId
    ensures t.count == |FilteredItems(items, t.id)|
  {
    Tab(CategoryIds[k], Captions[k], CategoryCount(items, CategoryIds[k]))
  }

  /** `categories`: the 'All Work' tab counting every item, then one tab per
      category whose badge counts that category. */
  function Tabs(items: seq<MediaItem>): (tabs: seq<Tab>)
    ensures |tabs| == 1 + |CategoryIds|
    ensures tabs[0].id == AllId && tabs[0].count == |items|
    ensures forall k :: 0 <= k < |CategoryIds| ==> tabs[k + 1].id == CategoryIds[k]
    ensures forall k :: 0 <= k < |tabs| ==> tabs[k].count == |FilteredItems(items, tabs[k].id)|
  {
    [Tab(AllId, "All Work", |items|)] + seq(4, k requires 0 <= k < 4 => CategoryTab(items, k))
  }

  /** One of the four categories that have their own tab. */
  predicate IsTabCategory(c: string)
  {
    c == "render" || c == "vr" || c == "3d" || c == "physical"
  }

  /** Every item's category is one of the four tab categories. */
  predicate WellCategorised(items: seq<MediaItem>)
  {
    forall i :: 0 <= i < |items| ==> IsTabCategory(items[i].category)
  }

  /** The sum of the four category badges; each badge counts how often its
      category occurs among the items' categories. */
  function CategoryTotal(items: seq<MediaItem>): nat
  {
    var m := multiset(ItemCategories(items));
    m["render"] + m["vr"] + m["3d"] + m["physical"]
  }

  /** Removing the first item lowers exactly one of the four badges by one. */
  lemma CategoryTotalCons(items: seq<MediaItem>)
    requires |items| > 0 && IsTabCategory(items[0].category)
    ensures CategoryTotal(items) == 1 + CategoryTotal(items[1..])
  {
    assert multiset(ItemCategories(items))
        == multiset{items[0].category} + multiset(ItemCategories(items[1..]));
  }

  /** When every item belongs to one of the four categories, the four
      category badges add up to the 'All Work' badge. */
  lemma {:induction false} CountsSumToTotal(items: seq<MediaItem>)
    requires WellCategorised(items)
    ensures CategoryTotal(items) == |items|
  {
    if |items| > 0 {
      var tail := items[1..];
      assert WellCategorised(tail) by {
        forall i | 0 <= i < |tail| ensures IsTabCategory(tail[i].category) {
          assert tail[i] == items[i + 1];
        }
      }
      CountsSumToTotal(tail);
      CategoryTotalCons(items);
    }
  }

  /** On the page's own data: 1 render, 2 VR, 1 3D and 2 physical items, six
      in all. */
  lemma PageCounts()
    ensures WellCategorised(PortfolioItems)
    ensures CategoryTotal(PortfolioItems) == |PortfolioItems| == 6
  {
    forall i | 0 <= i < |PortfolioItems|
      ensures IsTabCategory(PortfolioItems[i].category)
    {
      assert i == 0 || i == 1 || i == 2 || i == 3 || i == 4 || i == 5;
    }
    CountsSumToTotal(PortfolioItems);
  }

  /** The corner badge on a card. */
  datatype MediaIcon = Goggles | Wrench | Camcorder | Camera

  /** `getMediaIcon`: the category decides first (vr, then physical); only
      otherwise does a video get the camcorder; everything else the camera. */
  function GetMediaIcon(mediaType: string, category: string): (icon: MediaIcon)
    ensures icon == Goggles <==> category == "vr"
    ensures icon == Wrench <==> category == "physical"
    ensures icon == Camcorder <==> category != "vr" && category != "physical" && mediaType == "video"
    ensures icon == Camera <==> category != "vr" && category != "physical" && mediaType != "video"
  {
    if category == "vr" then Goggles
    else if category == "physical" then Wrench
    else if mediaType == "video" then Camcorder
    else Camera
  }

  /** A VR video shows the VR icon, not the video icon. */
  lemma VrVideoShowsGoggles()
    ensures GetMediaIcon("video", "vr") == Goggles
    ensures GetMediaIcon("video", "render") == Camcorder
  {
  }

  /** What a media card shows besides its title and description. */
  datatype CardFace = CardFace(icon: MediaIcon, playButton: bool, chip: string)

  function MediaCardFace(item: MediaItem): (f: CardFace)
    ensures f.icon == GetMediaIcon(item.mediaType, item.category)
    ensures f.playButton <==> item.mediaType == "video"
    ensures f.chip == Upper(item.category)
    ensures |f.chip| == |item.category|
    ensures forall i :: 0 <= i < |f.chip| ==> !IsLower(f.chip[i])
  {
    CardFace(GetMediaIcon(item.mediaType, item.category), item.mediaType == "video", Upper(item.category))
  }

  /** Clicks that concern the media modal. */
  datatype ModalEvent =
    | CardClick(item: MediaItem)  // a card: `setSelectedMedia(item)`
    | CloseClick                  // the close button: `setSelectedMedia(null)`
    | OverlayClick                // the dark overlay: `setSelectedMedia(null)`
    | ContentClick                // inside the modal: propagation stopped

  /** The selected media after one click; the modal is open iff it is `Some`. */
  function SelectMedia(selected: Option<MediaItem>, e: ModalEvent): (r: Option<MediaItem>)
    ensures e.CardClick? ==> r == Some(e.item)
    ensures (e.CloseClick? || e.OverlayClick?) ==> r == None
    ensures e.ContentClick? ==> r == selected
  {
    match e
    case CardClick(item) => Some(item)
    case CloseClick => None
    case OverlayClick => None
    case ContentClick => selected
  }

  /** Closing twice is the same as closing once, and a closed modal stays
      closed under content clicks (there is no content to click). */
  lemma CloseIdempotent(selected: Option<MediaItem>)
    ensures SelectMedia(SelectMedia(selected, CloseClick), CloseClick) == SelectMedia(selected, CloseClick)
    ensures SelectMedia(SelectMedia(selected, OverlayClick), ContentClick) == None
  {
  }

  /** The modal plays a video player iff the selected item is a video. */
  datatype ModalBody = NoModal | VideoPlayer(item: MediaItem) | Picture(item: MediaItem)

  function ModalView(selected: Option<MediaItem>): (b: ModalBody)
    ensures selected.None? <==> b.NoModal?
    ensures b.VideoPlayer? <==> selected.Some? && selected.value.mediaType == "video"
    ensures !b.NoModal? ==> b.item == selected.value
  {
    match selected
    case None => NoModal
    case Some(item) => if item.mediaType == "video" then VideoPlayer(item) else Picture(item)
  }
}

=== FILE: navbar.dfy ===
/**
 * The site navigation bar (`src/components/Navbar/navbar.jsx`): which links
 * are highlighted for the current location, the scroll-dependent look, the
 * mobile drawer and the two drop-down menus.
 */
module Navbar {
  import opened Wrappers
  import opened Text

  /** A link in one of the bar's lists; its icon is presentation only. */
  datatype NavLink = NavLink(text: string, path: string)

  const NavItems: seq<NavLink> := [
    NavLink("Home", "/"),
    NavLink("About", "/about"),
    NavLink("Contact", "/contact")
  ]

  const ServiceItems: seq<NavLink> := [
    NavLink("Studio", "/services/studio"),
    NavLink("Experience", "/services/experience"),
    NavLink("Transcendence", "/services/transcendence")
  ]

  const UserMenuItems: seq<NavLink> := [
    NavLink("Profile", "/profile"),
    NavLink("Login", "/login"),
    NavLink("Logout", "/logout")
  ]

  /** The path the 'Services' entry asks about. */
  const ServicesPath: string := "/services"

  /** `isActive(path)` for the location `pathname`: the root link only on the
      root itself; every other link whenever the location extends its path
      by any (possibly empty) suffix. */
  function IsActive(pathname: string, path: string): (r: bool)
    ensures path == "/" ==> (r <==> pathname == "/")
    ensures path != "/" ==> (r <==> exists rest :: Extends(pathname, path, rest))
  {
    if path == "/" then pathname == "/"
    else
      assert StartsWith(pathname, path) ==> Extends(pathname, path, pathname[|path|..]) by {
        if StartsWith(pathname, path) {
          assert pathname == pathname[..|path|] + pathname[|path|..];
        }
      }
      StartsWith(pathname, path)
  }

  /** `pathname` is `path` followed by `rest`. */
  ghost predicate Extends(pathname: string, path: string, rest: string)
  {
    pathname == path + rest
  }

  /** The prefix rule does not respect path segments: 'About' is highlighted
      on '/aboutus' too. */
  lemma AboutActiveOnAboutUs()
    ensures IsActive("/aboutus", "/about")
    ensures !IsActive("/aboutus", "/")
  {
    assert Extends("/aboutus", "/about", "us");
  }

  /** Highlighting is inherited by every deeper location. */
  lemma ActiveOnDeeperPath(pathname: string, path: string, rest: string)
    requires path != "/"
    requires IsActive(pathname, path)
    ensures IsActive(pathname + rest, path)
  {
    var r :| Extends(pathname, path, r);
    assert Extends(pathname + rest, path, r + rest);
  }

  /** Whenever a service item is highlighted, so is the 'Services' entry: all
      three service paths start with '/services'. */
  lemma ServicesActiveWithServiceItem(pathname: string, i: nat)
    requires i < |ServiceItems|
    requires IsActive(pathname, ServiceItems[i].path)
    ensures IsActive(pathname, ServicesPath)
  {
    var p := ServiceItems[i].path;
    assert StartsWith(p, ServicesPath) by {
      assert i == 0 || i == 1 || i == 2;
    }
    assert StartsWith(pathname, p) by {
      var r :| Extends(pathname, p, r);
      assert pathname[..|p|] == p;
    }
    StartsWithTransitive(pathname, p, ServicesPath);
    assert Extends(pathname, ServicesPath, pathname[|ServicesPath|..]) by {
      assert pathname == pathname[..|ServicesPath|] + pathname[|ServicesPath|..];
    }
  }

  /** `path` is not the root and names a prefix of `pathname`. */
  lemma ActivePrefix(pathname: string, path: string)
    requires path != "/" && IsActive(pathname, path)
    ensures StartsWith(pathname, path)
  {
    var r :| Extends(pathname, path, r);
    assert pathname[..|path|] == path;
  }

  /** At most one of the three main links is highlighted at any location. */
  lemma AtMostOneNavItemActive(pathname: string, i: nat, j: nat)
    requires i < j < |NavItems|
    ensures !(IsActive(pathname, NavItems[i].path) && IsActive(pathname, NavItems[j].path))
  {
    if IsActive(pathname, NavItems[j].path) {
      ActivePrefix(pathname, NavItems[j].path);
      if i == 0 {
        assert |NavItems[j].path| > 1;
      } else {
        assert i == 1 && j == 2;
        StartsWithDisjoint(pathname, "/about", "/contact", 1);
      }
    }
  }

  /** At most one of the three service items is highlighted at any location. */
  lemma AtMostOneServiceItemActive(pathname: string, i: nat, j: nat)
    requires i < j < |ServiceItems|
    ensures !(IsActive(pathname, ServiceItems[i].path) && IsActive(pathname, ServiceItems[j].path))
  {
    assert (i == 0 && j == 1) || (i == 0 && j == 2) || (i == 1 && j == 2);
    var p, q := ServiceItems[i].path, ServiceItems[j].path;
    assert p[10] != q[10];
    StartsWithDisjoint(pathname, p, q, 10);
    if IsActive(pathname, p) {
      ActivePrefix(pathname, p);
    }
  }

  /** A location that differs from a non-root link's path at an index both
      share does not highlight that link. */
  lemma NotActiveWhenDiffer(pathname: string, path: string, k: nat)
    requires path != "/" && k < |pathname| && k < |path| && pathname[k] != path[k]
    ensures !IsActive(pathname, path)
  {
    if IsActive(pathname, path) {
      ActivePrefix(pathname, path);
    }
  }

  /** On a page reached from the user menu no main link, no service item and
      not the 'Services' entry is highlighted. */
  lemma UserPageHighlightsNoLink(i: nat)
    requires i < |UserMenuItems|
    ensures forall j :: 0 <= j < |NavItems| ==> !IsActive(UserMenuItems[i].path, NavItems[j].path)
    ensures forall j :: 0 <= j < |ServiceItems| ==> !IsActive(UserMenuItems[i].path, ServiceItems[j].path)
    ensures !IsActive(UserMenuItems[i].path, ServicesPath)
  {
    var p := UserMenuItems[i].path;
    assert i == 0 || i == 1 || i == 2;
    assert p[1] == 'p' || p[1] == 'l';
    NotActiveWhenDiffer(p, ServicesPath, 1);
    forall j | 0 <= j < |NavItems|
      ensures !IsActive(p, NavItems[j].path)
    {
      assert j == 0 || j == 1 || j == 2;
      if j > 0 {
        NotActiveWhenDiffer(p, NavItems[j].path, 1);
      }
    }
    forall j | 0 <= j < |ServiceItems|
      ensures !IsActive(p, ServiceItems[j].path)
    {
      assert j == 0 || j == 1 || j == 2;
      NotActiveWhenDiffer(p, ServiceItems[j].path, 1);
    }
  }

  /** How far down the page must be scrolled before the bar changes look. */
  const ScrollThreshold: real := 20.0

  /** The scroll handler: the state write it performs for vertical offset
      `scrollY`, if any. The new value is whether the offset passes the
      threshold, and it is written only when it differs from `scrolled`. */
  function ScrollWrite(scrolled: bool, scrollY: real): (w: Option<bool>)
    ensures w.Some? <==> (scrollY > ScrollThreshold) != scrolled
    ensures w.Some? ==> w.value == !scrolled
  {
    var isScrolled := scrollY > ScrollThreshold;
    if isScrolled != scrolled then Some(isScrolled) else None
  }

  /** The bar's state: the scroll look, the drawer, and the two menu anchors.
      An anchor is the element the menu hangs from (`null` when closed),
      identified here by a number. */
  datatype NavState = NavState(
    scrolled: bool,
    mobileOpen: bool,
    servicesAnchor: Option<nat>,
    userAnchor: Option<nat>)

  const InitialNav: NavState := NavState(false, false, None, None)

  /** A menu is shown iff its anchor is set (`Boolean(anchorEl)`). */
  predicate MenuOpen(anchor: Option<nat>)
  {
    anchor.Some?
  }

  datatype NavEvent =
    | Scroll(scrollY: real)          // a window scroll to offset `scrollY`
    | DrawerToggle                   // the menu icon, the drawer body, or the drawer's backdrop
    | OpenServices(target: nat)      // the 'Services' button
    | CloseServices                  // a services item, or the services menu's backdrop
    | OpenUser(target: nat)          // the avatar button
    | CloseUser                      // a user-menu item, or the user menu's backdrop

  /** The state after one event. Each event touches only its own piece of
      state. */
  function Step(s: NavState, e: NavEvent): (t: NavState)
    ensures e.Scroll? ==> t == s.(scrolled := e.scrollY > ScrollThreshold)
    ensures e.DrawerToggle? ==> t == s.(mobileOpen := !s.mobileOpen)
    ensures e.OpenServices? ==> t == s.(servicesAnchor := Some(e.target)) && MenuOpen(t.servicesAnchor)
    ensures e.CloseServices? ==> t == s.(servicesAnchor := None) && !MenuOpen(t.servicesAnchor)
    ensures e.OpenUser? ==> t == s.(userAnchor := Some(e.target)) && MenuOpen(t.userAnchor)
    ensures e.CloseUser? ==> t == s.(userAnchor := None) && !MenuOpen(t.userAnchor)
  {
    match e
    case Scroll(y) =>
      (match ScrollWrite(s.scrolled, y)
       case Some(v) => s.(scrolled := v)
       case None => s)
    case DrawerToggle => s.(mobileOpen := !s.mobileOpen)
    case OpenServices(target) => s.(servicesAnchor := Some(target))
    case CloseServices => s.(servicesAnchor := None)
    case OpenUser(target) => s.(userAnchor := Some(target))
    case CloseUser => s.(userAnchor := None)
  }

  /** The state after a run of events, oldest first. */
  function Run(s: NavState, events: seq<NavEvent>): NavState
    decreases |events|
  {
    if |events| == 0 then s else Run(Step(s, events[0]), events[1..])
  }

  /** Number of drawer toggles in a run of events. */
  function Toggles(events: seq<NavEvent>): nat
  {
    if |events| == 0 then 0 else (if events[0].DrawerToggle? then 1 else 0) + Toggles(events[1..])
  }

  /** Only drawer toggles move the drawer: after a run it has flipped once
      per toggle. */
  lemma {:induction false} DrawerFollowsToggles(s: NavState, events: seq<NavEvent>)
    ensures Run(s, events).mobileOpen <==> (s.mobileOpen != (Toggles(events) % 2 == 1))
    decreases |events|
  {
    if |events| > 0 {
      DrawerFollowsToggles(Step(s, events[0]), events[1..]);
    }
  }

  /** The bar first renders unscrolled with the drawer and both menus closed;
      from there the drawer is open iff it has been toggled an odd number of
      times. */
  lemma DrawerOpenIffOddToggles(events: seq<NavEvent>)
    ensures !InitialNav.scrolled && !InitialNav.mobileOpen
    ensures !MenuOpen(InitialNav.servicesAnchor) && !MenuOpen(InitialNav.userAnchor)
    ensures Run(InitialNav, events).mobileOpen <==> Toggles(events) % 2 == 1
  {
    DrawerFollowsToggles(InitialNav, events);
  }

  /** Two drawer toggles restore the drawer. */
  lemma DrawerToggleTwice(s: NavState)
    ensures Step(Step(s, DrawerToggle), DrawerToggle) == s
  {
  }

  /** A second scroll to the same offset writes nothing. */
  lemma ScrollSettles(s: NavState, y: real)
    ensures ScrollWrite(Step(s, Scroll(y)).scrolled, y) == None
  {
  }

  /** Closing a menu twice is the same as closing it once, and closing a menu
      that is already closed changes nothing. */
  lemma CloseIdempotent(s: NavState)
    ensures Step(Step(s, CloseServices), CloseServices) == Step(s, CloseServices)
    ensures Step(Step(s, CloseUser), CloseUser) == Step(s, CloseUser)
    ensures !MenuOpen(s.servicesAnchor) ==> Step(s, CloseServices) == s
    ensures !MenuOpen(s.userAnchor) ==> Step(s, CloseUser) == s
  {
  }
}

=== FILE: portfolio_grid.dfy ===
/**
 * The Studio portfolio grid (`src/components/Chingu-Studio/PortfolioGrid.jsx`):
 * the fallback project list, the category buttons derived from the projects,
 * the category filter, and the masonry image heights.
 */
module PortfolioGrid {
  import opened Seqs

  /** A grid entry; the theme colour of each card is presentation only. */
  datatype GridProject = GridProject(id: nat, title: string, category: string, description: string)

  /** The category button that shows every project. */
  const All: string := "All"

  const DefaultProjects: seq<GridProject> := [
    GridProject(1, "Brand Identity Design", "Branding", "Complete visual identity system for a tech startup."),
    GridProject(2, "Mobile App UI/UX", "UI/UX Design", "Intuitive interface design for a fitness tracking application."),
    GridProject(3, "Marketing Website", "Web Design", "Responsive website design with interactive elements."),
    GridProject(4, "Product Packaging", "Packaging", "Sustainable packaging design for an eco-friendly product line."),
    GridProject(5, "Digital Campaign", "Marketing", "Cohesive digital marketing assets for multiple platforms."),
    GridProject(6, "Design System", "UI/UX Design", "Comprehensive component library and design guidelines.")
  ]

  /** `displayProjects`: the `projects` prop when it is non-empty, otherwise
      the six defaults; never empty. */
  function DisplayProjects(projects: seq<GridProject>): (r: seq<GridProject>)
    ensures |projects| > 0 ==> r == projects
    ensures |projects| == 0 ==> r == DefaultProjects
    ensures |r| > 0
  {
    if |projects| > 0 then projects else DefaultProjects
  }

  function CategoriesOf(ps: seq<GridProject>): (cs: seq<string>)
    ensures |cs| == |ps|
    ensures forall i :: 0 <= i < |ps| ==> cs[i] == ps[i].category
  {
    seq(|ps|, i requires 0 <= i < |ps| => ps[i].category)
  }

  /** `categories`: 'All', then every category used by some project exactly
      once, ordered by where it first occurs. */
  function Categories(ps: seq<GridProject>): (r: seq<string>)
    ensures |r| >= 1 && r[0] == All
    ensures forall c :: c in r[1..] <==> exists i :: 0 <= i < |ps| && ps[i].category == c
    ensures NoDup(r[1..])
    ensures forall i :: 1 <= i < |r| ==> r[i] in CategoriesOf(ps)
    ensures forall i, j :: 1 <= i < j < |r| ==>
      FirstIndex(CategoriesOf(ps), r[i]) < FirstIndex(CategoriesOf(ps), r[j])
  {
    var d := Dedup(CategoriesOf(ps));
    assert ([All] + d)[1..] == d;
    [All] + d
  }

  predicate InCategory(p: GridProject, category: string)
  {
    p.category == category
  }

  /** `filteredProjects`: every project for 'All'; otherwise exactly the
      projects of that category, in their original order. */
  function FilteredProjects(ps: seq<GridProject>, active: string): (r: seq<GridProject>)
    ensures active == All ==> r == ps
    ensures active != All ==> forall p :: p in r <==> p in ps && p.category == active
    ensures active != All ==> forall i :: 0 <= i < |r| ==> r[i].category == active
    ensures forall p :: p in r ==> multiset(r)[p] == multiset(ps)[p]
    ensures Sublist(r, ps)
  {
    if active == All then
      assert Sublist(ps, ps) by { FilterAllPass(ps, (p: GridProject) => true); }
      ps
    else
      FilterMembership(ps, (p: GridProject) => InCategory(p, active));
      FilterKeepsMultiplicity(ps, (p: GridProject) => InCategory(p, active));
      Filter(ps, (p: GridProject) => InCategory(p, active))
  }

  /** Every category button shows at least one card: the buttons come from
      the displayed projects themselves, and those are never empty. */
  lemma EveryTabNonEmpty(projects: seq<GridProject>, c: string)
    requires c in Categories(DisplayProjects(projects))
    ensures |FilteredProjects(DisplayProjects(projects), c)| > 0
  {
    var ps := DisplayProjects(projects);
    var cats := Categories(ps);
    if c != All {
      var k :| 0 <= k < |cats| && cats[k] == c;
      assert c in cats[1..] by { assert cats[1..][k - 1] == c; }
      var i :| 0 <= i < |ps| && ps[i].category == c;
      assert ps[i] in FilteredProjects(ps, c);
    }
  }

  /** The button for category `c` is highlighted iff `c` is the active one. */
  predicate ButtonActive(activeCategory: string, c: string)
  {
    activeCategory == c
  }

  /** The category selected when the grid first renders. */
  const InitialCategory: string := All

  /** At first render the 'All' button is active and every displayed project
      is shown. */
  lemma InitialViewShowsAll(projects: seq<GridProject>)
    ensures InitialCategory in Categories(DisplayProjects(projects))
    ensures ButtonActive(InitialCategory, All)
    ensures FilteredProjects(DisplayProjects(projects), InitialCategory) == DisplayProjects(projects)
  {
  }

  /** Unless some project is itself categorised 'All', exactly one button is
      highlighted whenever the active category is one of the buttons (in
      particular at first render). */
  lemma ExactlyOneActiveButton(ps: seq<GridProject>, active: string)
    requires forall i :: 0 <= i < |ps| ==> ps[i].category != All
    requires active in Categories(ps)
    ensures |Filter(Categories(ps), (c: string) => ButtonActive(active, c))| == 1
  {
    var cats := Categories(ps);
    var d := cats[1..];
    assert cats == [All] + d;
    assert All !in d;
    assert NoDup(cats) by {
      forall i, j | 0 <= i < j < |cats| ensures cats[i] != cats[j] {
        if i == 0 {
          assert cats[j] == d[j - 1];
        } else {
          assert cats[i] == d[i - 1] && cats[j] == d[j - 1];
        }
      }
    }
    OneMatchInDistinct(cats, active);
  }

  /** In a duplicate-free list holding `x`, exactly one element equals `x`. */
  lemma {:induction false} OneMatchInDistinct(s: seq<string>, x: string)
    requires NoDup(s) && x in s
    ensures Filter(s, (c: string) => ButtonActive(x, c)) == [x]
  {
    var t := s[1..];
    assert NoDup(t) by {
      forall i, j | 0 <= i < j < |t| ensures t[i] != t[j] {
        assert t[i] == s[i + 1] && t[j] == s[j + 1];
      }
    }
    if s[0] == x {
      forall i | 0 <= i < |t| ensures !ButtonActive(x, t[i]) {
        assert t[i] == s[i + 1];
      }
      FilterNonePass(t, (c: string) => ButtonActive(x, c));
    } else {
      OneMatchInDistinct(t, x);
    }
  }

  const Heights: seq<nat> := [300, 380, 260, 340, 280, 320]

  /** `getImageHeight(index)`, in pixels: one of the six listed heights,
      repeating every six cards. */
  function ImageHeight(index: nat): (h: nat)
    ensures h in Heights
    ensures h == Heights[index % |Heights|]
  {
    Heights[index % |Heights|]
  }

  /** The heights repeat with period six. */
  lemma {:induction false} ImageHeightPeriodic(index: nat, k: nat)
    ensures ImageHeight(index + 6 * k) == ImageHeight(index)
  {
    if k > 0 {
      ImageHeightPeriodic(index, k - 1);
      assert index + 6 * k == (index + 6 * (k - 1)) + 6;
    }
  }
}

=== FILE: project_card.dfy ===
/**
 * A portfolio project card (`src/components/projectCard.jsx`): the tag chips
 * on the card face, the tag list in the details modal, and the modal's
 * open/close flag.
 */
module ProjectCard {
  import opened Wrappers
  import opened Text

  /** How many tags the card face shows before summarising the rest. */
  const FaceLimit: nat := 3

  function Min(a: nat, b: nat): nat
  {
    if a <= b then a else b
  }

  /** A chip on the card face: a tag, or the '+N' chip for the hidden tags. */
  datatype Chip = TagChip(tag: string) | MoreChip(text: string)

  /** The chips on the card face for the `tags` prop, which may be missing:
      the first (at most three) tags in order, then a '+N' chip exactly when
      tags were left off. A missing `tags` prop shows nothing. */
  function FaceChips(tags: Option<seq<string>>): (chips: seq<Chip>)
    ensures tags.None? ==> chips == []
    ensures tags.Some? ==>
      |chips| == Min(|tags.value|, FaceLimit) + (if |tags.value| > FaceLimit then 1 else 0)
    ensures forall i :: 0 <= i < |chips| && chips[i].TagChip? ==>
      tags.Some? && i < FaceLimit && chips[i].tag == tags.value[i]
    ensures forall i :: 0 <= i < |chips| && chips[i].MoreChip? ==> i == |chips| - 1
    ensures (|chips| > 0 && chips[|chips| - 1].MoreChip?) <==> tags.Some? && |tags.value| > FaceLimit
    ensures tags.Some? && |tags.value| > FaceLimit ==>
      chips[|chips| - 1] == MoreChip("+" + DecimalString(|tags.value| - FaceLimit))
  {
    match tags
    case None => []
    case Some(ts) =>
      var shown := seq(Min(|ts|, FaceLimit), i requires 0 <= i < Min(|ts|, FaceLimit) => TagChip(ts[i]));
      if |ts| > FaceLimit then shown + [MoreChip("+" + DecimalString(|ts| - FaceLimit))] else shown
  }

  /** The tags listed in the details modal: all of them, or none when the
      prop is missing. */
  function ModalTags(tags: Option<seq<string>>): (ts: seq<string>)
    ensures tags.None? ==> ts == []
    ensures tags.Some? ==> ts == tags.value
  {
    match tags
    case None => []
    case Some(ts) => ts
  }

  /** Number of tag chips among `chips`. */
  function TagChipCount(chips: seq<Chip>): (n: nat)
    ensures n <= |chips|
  {
    if |chips| == 0 then 0
    else (if chips[0].TagChip? then 1 else 0) + TagChipCount(chips[1..])
  }

  /** A '+N' caption: a plus sign followed by decimal digits. */
  predicate IsCountCaption(t: string)
  {
    |t| > 1 && t[0] == '+' && AllDigits(t[1..])
  }

  predicate AllDigits(s: string)
  {
    forall i :: 0 <= i < |s| ==> IsDigit(s[i])
  }

  /** The number a '+N' chip at the end of `chips` announces; 0 when there
      is no such chip. */
  function HiddenCount(chips: seq<Chip>): nat
  {
    if |chips| > 0 && chips[|chips| - 1].MoreChip? && IsCountCaption(chips[|chips| - 1].text)
    then DecimalValue(chips[|chips| - 1].text[1..])
    else 0
  }

  /** Tag chips in a list made only of tag chips. */
  lemma {:induction false} AllTagChips(chips: seq<Chip>)
    requires forall i :: 0 <= i < |chips| ==> chips[i].TagChip?
    ensures TagChipCount(chips) == |chips|
  {
    if |chips| > 0 {
      AllTagChips(chips[1..]);
    }
  }

  /** Appending a '+N' chip adds no tag chip. */
  lemma {:induction false} TagChipCountAppendMore(chips: seq<Chip>, caption: string)
    ensures TagChipCount(chips + [MoreChip(caption)]) == TagChipCount(chips)
  {
    if |chips| > 0 {
      assert (chips + [MoreChip(caption)])[1..] == chips[1..] + [MoreChip(caption)];
      TagChipCountAppendMore(chips[1..], caption);
    }
  }

  /** The card face accounts for every tag the modal lists: the tag chips
      shown plus the number on the '+N' chip equal the number of tags. */
  lemma FaceAccountsForEveryTag(tags: Option<seq<string>>)
    ensures TagChipCount(FaceChips(tags)) + HiddenCount(FaceChips(tags)) == |ModalTags(tags)|
  {
    if tags.Some? {
      FaceAccountsForTags(tags.value);
    }
  }

  lemma FaceAccountsForTags(ts: seq<string>)
    ensures TagChipCount(FaceChips(Some(ts))) + HiddenCount(FaceChips(Some(ts))) == |ts|
  {
    var chips := FaceChips(Some(ts));
    var m := Min(|ts|, FaceLimit);
    var shown := chips[..m];
    assert forall i :: 0 <= i < |shown| ==> shown[i].TagChip?;
    AllTagChips(shown);
    if |ts| > FaceLimit {
      var n: nat := |ts| - FaceLimit;
      var caption := "+" + DecimalString(n);
      assert chips == shown + [MoreChip(caption)];
      TagChipCountAppendMore(shown, caption);
      assert caption[1..] == DecimalString(n);
      assert IsCountCaption(caption);
      DecimalRoundTrip(n);
    } else {
      assert chips == shown;
    }
  }

  /** The tags on the card face are the first tags of the modal's list. */
  lemma FaceTagsLeadModalTags(tags: Option<seq<string>>, i: nat)
    requires i < |FaceChips(tags)| && FaceChips(tags)[i].TagChip?
    ensures i < |ModalTags(tags)| && FaceChips(tags)[i].tag == ModalTags(tags)[i]
  {
  }

  /** What can change whether the details modal is open. */
  datatype CardEvent =
    | ExpandClick     // the full-screen button on the card image
    | CloseClick      // the close button inside the modal
    | BackdropClick   // the modal's backdrop (its `onClose`)

  /** `open` after one event: `handleOpen` on the expand button, `handleClose`
      otherwise. */
  function ModalOpen(open: bool, e: CardEvent): (r: bool)
    ensures r <==> e.ExpandClick?
  {
    match e
    case ExpandClick => true
    case CloseClick => false
    case BackdropClick => false
  }

  /** The modal starts closed; repeating any event changes nothing more. */
  lemma ModalEventsIdempotent(open: bool, e: CardEvent)
    ensures ModalOpen(ModalOpen(open, e), e) == ModalOpen(open, e)
  {
  }
}

=== FILE: project_showcase.dfy ===
/**
 * The Studio project showcase (`src/components/Chingu-Studio/ProjectShowcase.jsx`):
 * tabs are selected by index, index 0 shows everything, any other index
 * shows the projects whose category equals that tab's caption, and each card
 * shows a 3D canvas or a flat preview.
 */
module ProjectShowcase {
  import opened Seqs

  datatype ShowcaseProject = ShowcaseProject(
    id: nat,
    title: string,
    category: string,
    has3D: bool)

  const Projects: seq<ShowcaseProject> := [
    ShowcaseProject(1, "Vision AI Dashboard", "UI Design", true),
    ShowcaseProject(2, "Eco Packaging Collection", "Product Design", true),
    ShowcaseProject(3, "FinTech Mobile App", "UI Design", false),
    ShowcaseProject(4, "Smart Home Ecosystem", "Product Design", true),
    ShowcaseProject(5, "Healthcare Portal", "UI Design", false),
    ShowcaseProject(6, "Augmented Reality Glasses", "Product Design", true)
  ]

  const Categories: seq<string> := ["All Projects", "UI Design", "Product Design", "Brand Identity"]

  predicate InCategory(p: ShowcaseProject, category: string)
  {
    p.category == category
  }

  /** `projects.filter(project => project.category === category)`. */
  function OfCategory(projects: seq<ShowcaseProject>, category: string): seq<ShowcaseProject>
  {
    Filter(projects, (p: ShowcaseProject) => InCategory(p, category))
  }

  /** `filteredProjects` for tab index `tab`: index 0 keeps every project;
      an index naming a tab keeps the projects whose category equals that
      tab's caption, in order; an index past the last tab reads `undefined`,
      which no category equals, so it keeps nothing. */
  function FilteredProjects(projects: seq<ShowcaseProject>, categories: seq<string>, tab: nat): (r: seq<ShowcaseProject>)
    ensures tab == 0 ==> r == projects
    ensures 0 < tab < |categories| ==>
      forall p :: p in r <==> p in projects && p.category == categories[tab]
    ensures tab > 0 && tab >= |categories| ==> r == []
    ensures forall p :: p in r ==> multiset(r)[p] == multiset(projects)[p]
    ensures Sublist(r, projects)
  {
    if tab == 0 then
      assert Sublist(projects, projects) by {
        FilterAllPass(projects, (p: ShowcaseProject) => true);
      }
      projects
    else if tab < |categories| then
      FilterMembership(projects, (p: ShowcaseProject) => InCategory(p, categories[tab]));
      FilterKeepsMultiplicity(projects, (p: ShowcaseProject) => InCategory(p, categories[tab]));
      OfCategory(projects, categories[tab])
    else []
  }

  /** A tab other than the first shows exactly the filter for its caption. */
  lemma TabIsOfCategory(projects: seq<ShowcaseProject>, categories: seq<string>, tab: nat)
    requires 0 < tab < |categories|
    ensures FilteredProjects(projects, categories, tab) == OfCategory(projects, categories[tab])
  {
  }

  /** No project is in 'Brand Identity', so its tab (index 3) is empty. */
  lemma BrandIdentityTabEmpty()
    ensures FilteredProjects(Projects, Categories, 3) == []
  {
    forall i | 0 <= i < |Projects|
      ensures !InCategory(Projects[i], "Brand Identity")
    {
      assert i == 0 || i == 1 || i == 2 || i == 3 || i == 4 || i == 5;
    }
    FilterNonePass(Projects, (p: ShowcaseProject) => InCategory(p, "Brand Identity"));
  }

  /** When every project is in category `a` or `b` (and those differ), the two
      tabs together show every project exactly once. */
  lemma TwoCategoriesPartition(projects: seq<ShowcaseProject>, a: string, b: string)
    requires a != b
    requires forall i :: 0 <= i < |projects| ==> projects[i].category == a || projects[i].category == b
    ensures multiset(OfCategory(projects, a)) + multiset(OfCategory(projects, b)) == multiset(projects)
  {
    FilterPartition(projects, (p: ShowcaseProject) => InCategory(p, a), (p: ShowcaseProject) => InCategory(p, b));
  }

  /** Peeling project `k` off the suffix of the page's list that starts at `k`. */
  lemma PeelProject(k: nat, c: string)
    requires k < |Projects|
    ensures OfCategory(Projects[k..], c)
         == (if Projects[k].category == c then [Projects[k]] else []) + OfCategory(Projects[k + 1..], c)
  {
    assert Projects[k..][1..] == Projects[k + 1..];
  }

  /** The page's 'UI Design' projects, computed one project at a time. */
  lemma UiDesignProjects()
    ensures OfCategory(Projects, "UI Design") == [Projects[0], Projects[2], Projects[4]]
  {
    var c := "UI Design";
    assert OfCategory(Projects[6..], c) == [];
    assert OfCategory(Projects[5..], c) == [] by { PeelProject(5, c); }
    assert OfCategory(Projects[4..], c) == [Projects[4]] by { PeelProject(4, c); }
    assert OfCategory(Projects[3..], c) == [Projects[4]] by { PeelProject(3, c); }
    assert OfCategory(Projects[2..], c) == [Projects[2], Projects[4]] by { PeelProject(2, c); }
    assert OfCategory(Projects[1..], c) == [Projects[2], Projects[4]] by { PeelProject(1, c); }
    assert Projects[0..] == Projects;
    PeelProject(0, c);
  }

  /** The page's 'Product Design' projects, computed one project at a time. */
  lemma ProductDesignProjects()
    ensures OfCategory(Projects, "Product Design") == [Projects[1], Projects[3], Projects[5]]
  {
    var c := "Product Design";
    assert OfCategory(Projects[6..], c) == [];
    assert OfCategory(Projects[5..], c) == [Projects[5]] by { PeelProject(5, c); }
    assert OfCategory(Projects[4..], c) == [Projects[5]] by { PeelProject(4, c); }
    assert OfCategory(Projects[3..], c) == [Projects[3], Projects[5]] by { PeelProject(3, c); }
    assert OfCategory(Projects[2..], c) == [Projects[3], Projects[5]] by { PeelProject(2, c); }
    assert OfCategory(Projects[1..], c) == [Projects[1], Projects[3], Projects[5]] by { PeelProject(1, c); }
    assert Projects[0..] == Projects;
    PeelProject(0, c);
  }

  /** The 'UI Design' and 'Product Design' tabs split the six projects
      between them, three each. */
  lemma UiAndProductPartition()
    ensures FilteredProjects(Projects, Categories, 1) == [Projects[0], Projects[2], Projects[4]]
    ensures FilteredProjects(Projects, Categories, 2) == [Projects[1], Projects[3], Projects[5]]
    ensures multiset(FilteredProjects(Projects, Categories, 1))
          + multiset(FilteredProjects(Projects, Categories, 2)) == multiset(Projects)
  {
    TabIsOfCategory(Projects, Categories, 1);
    TabIsOfCategory(Projects, Categories, 2);
    UiDesignProjects();
    ProductDesignProjects();
    PageSplitsInTwo();
  }

  /** Every project on the page is in 'UI Design' or 'Product Design'. */
  lemma PageSplitsInTwo()
    ensures multiset(OfCategory(Projects, "UI Design"))
          + multiset(OfCategory(Projects, "Product Design")) == multiset(Projects)
  {
    forall i | 0 <= i < |Projects|
      ensures Projects[i].category == "UI Design" || Projects[i].category == "Product Design"
    {
      assert i == 0 || i == 1 || i == 2 || i == 3 || i == 4 || i == 5;
    }
    TwoCategoriesPartition(Projects, "UI Design", "Product Design");
  }

  /** The media area of a card. */
  datatype CardMedia = Canvas3D | DesignPreview

  function CardMediaOf(p: ShowcaseProject): (m: CardMedia)
    ensures m == Canvas3D <==> p.has3D
  {
    if p.has3D then Canvas3D else DesignPreview
  }
}

=== FILE: screensaver.dfy ===
/**
 * The animated hero background (`src/components/screenSaver.jsx`): six
 * drifting, rotating shapes that turn back once they leave the canvas by more
 * than a margin, and fifteen particles that jump to the opposite edge when
 * they leave it. Coordinates are reals; each `Math.random()` draw is a
 * parameter in [0, 1). The last part models how the frame loop is started
 * and cancelled.
 */
module ScreenSaver {
  import opened Wrappers

  /** `Math.PI * 2` as the double the page computes. */
  const TwoPi: real := 6.283185307179586

  /** How far past the canvas edge a shape may drift before it turns back. */
  const Margin: real := 50.0

  const ShapeCount: nat := 6
  const ParticleCount: nat := 15

  function Abs(x: real): real
  {
    if x < 0.0 then -x else x
  }

  /** One value of `Math.random()`. */
  predicate IsDraw(r: real)
  {
    0.0 <= r < 1.0
  }

  datatype Shape = Shape(
    x: real, y: real,
    size: real,
    rotation: real, rotationSpeed: real,
    vx: real, vy: real,
    hue: real, alpha: real)

  datatype Particle = Particle(
    x: real, y: real,
    vx: real, vy: real,
    size: real, opacity: real)

  /** The nine draws that create one shape, in the order the page makes them. */
  datatype ShapeDraws = ShapeDraws(
    x: real, y: real, size: real, rotation: real, rotationSpeed: real,
    vx: real, vy: real, hue: real, alpha: real)

  /** The six draws that create one particle, in the order the page makes them. */
  datatype ParticleDraws = ParticleDraws(
    x: real, y: real, vx: real, vy: real, size: real, opacity: real)

  predicate ValidShapeDraws(d: ShapeDraws)
  {
    IsDraw(d.x) && IsDraw(d.y) && IsDraw(d.size) && IsDraw(d.rotation) && IsDraw(d.rotationSpeed)
    && IsDraw(d.vx) && IsDraw(d.vy) && IsDraw(d.hue) && IsDraw(d.alpha)
  }

  predicate ValidParticleDraws(d: ParticleDraws)
  {
    IsDraw(d.x) && IsDraw(d.y) && IsDraw(d.vx) && IsDraw(d.vy) && IsDraw(d.size) && IsDraw(d.opacity)
  }

  /** A draw scaled to an axis of length `extent` (`Math.random() *
      canvas.width`): a point on that axis. */
  function Scale(r: real, extent: real): (x: real)
    requires IsDraw(r) && extent >= 0.0
    ensures 0.0 <= x <= extent
    ensures r == 0.0 ==> x == 0.0
  {
    MulNonNeg(1.0 - r, extent);
    MulNonNeg(r, extent);
    r * extent
  }

  lemma MulNonNeg(a: real, b: real)
    requires a >= 0.0 && b >= 0.0
    ensures a * b >= 0.0
  {
  }

  /** A new shape on a `width` by `height` canvas: somewhere on the canvas,
      20 to 60 pixels wide, at an angle below a full turn, turning by at most
      0.005 and moving by at most 0.15 per frame on each axis, with a hue in
      [240, 300) and an opacity in [0.2, 0.6). */
  function NewShape(d: ShapeDraws, width: nat, height: nat): (s: Shape)
    requires ValidShapeDraws(d)
    ensures 0.0 <= s.x <= width as real && 0.0 <= s.y <= height as real
    ensures 20.0 <= s.size < 60.0
    ensures 0.0 <= s.rotation < TwoPi
    ensures Abs(s.rotationSpeed) <= 0.005
    ensures Abs(s.vx) <= 0.15 && Abs(s.vy) <= 0.15
    ensures 240.0 <= s.hue < 300.0
    ensures 0.2 <= s.alpha < 0.6
  {
    var x := Scale(d.x, width as real);
    var y := Scale(d.y, height as real);
    Shape(
      x, y,
      d.size * 40.0 + 20.0,
      d.rotation * TwoPi, (d.rotationSpeed - 0.5) * 0.01,
      (d.vx - 0.5) * 0.3, (d.vy - 0.5) * 0.3,
      d.hue * 60.0 + 240.0, d.alpha * 0.4 + 0.2)
  }

  /** A new particle: somewhere on the canvas, moving by at most 0.1 per frame
      on each axis, with a radius in [1, 3) and an opacity in [0.3, 0.9). */
  function NewParticle(d: ParticleDraws, width: nat, height: nat): (p: Particle)
    requires ValidParticleDraws(d)
    ensures 0.0 <= p.x <= width as real && 0.0 <= p.y <= height as real
    ensures Abs(p.vx) <= 0.1 && Abs(p.vy) <= 0.1
    ensures 1.0 <= p.size < 3.0
    ensures 0.3 <= p.opacity < 0.9
  {
    var x := Scale(d.x, width as real);
    var y := Scale(d.y, height as real);
    Particle(
      x, y,
      (d.vx - 0.5) * 0.2, (d.vy - 0.5) * 0.2,
      d.size * 2.0 + 1.0, d.opacity * 0.6 + 0.3)
  }

  /** One particle coordinate for one frame on an axis of length `extent`:
      it moves by `v`; leaving below 0 puts it at the far edge, leaving past
      the far edge puts it at 0. It is a reset to the edge, not a wrap
      modulo the extent. */
  function WrapAxis(x: real, v: real, extent: real): (r: real)
    requires extent >= 0.0
    ensures 0.0 <= r <= extent
    ensures 0.0 <= x + v <= extent ==> r == x + v
    ensures x + v < 0.0 ==> r == extent
    ensures x + v > extent ==> r == 0.0
  {
    var moved := x + v;
    var afterLow := if moved < 0.0 then extent else moved;
    if afterLow > extent then 0.0 else afterLow
  }

  /** A particle leaving by a little re-enters at the opposite edge, not by
      that little: at 799 moving 5 on an 800-wide canvas it lands at 0, where
      a wrap modulo 800 would give 4. */
  lemma ResetIsNotModulo()
    ensures WrapAxis(799.0, 5.0, 800.0) == 0.0
    ensures WrapAxis(799.0, 5.0, 800.0) != (799.0 + 5.0) - 800.0
    ensures WrapAxis(1.0, -3.0, 800.0) == 800.0
  {
  }

  /** One frame of a particle; only its position changes, each coordinate by
      the move-and-reset of `WrapAxis`. */
  function StepParticle(p: Particle, width: nat, height: nat): (q: Particle)
    ensures q.x == WrapAxis(p.x, p.vx, width as real) && q.y == WrapAxis(p.y, p.vy, height as real)
    ensures p.x + p.vx < 0.0 ==> q.x == width as real
    ensures p.x + p.vx > width as real ==> q.x == 0.0
    ensures p.y + p.vy < 0.0 ==> q.y == height as real
    ensures p.y + p.vy > height as real ==> q.y == 0.0
    ensures 0.0 <= q.x <= width as real && 0.0 <= q.y <= height as real
    ensures q.vx == p.vx && q.vy == p.vy && q.size == p.size && q.opacity == p.opacity
    ensures 0.0 <= p.x + p.vx <= width as real ==> q.x == p.x + p.vx
    ensures 0.0 <= p.y + p.vy <= height as real ==> q.y == p.y + p.vy
  {
    p.(x := WrapAxis(p.x, p.vx, width as real), y := WrapAxis(p.y, p.vy, height as real))
  }

  /** A particle well inside the canvas moves by exactly its velocity. */
  lemma ParticleMovesByVelocity(p: Particle, width: nat, height: nat)
    requires Abs(p.vx) <= p.x <= width as real - Abs(p.vx)
    requires Abs(p.vy) <= p.y <= height as real - Abs(p.vy)
    ensures StepParticle(p, width, height).x == p.x + p.vx
    ensures StepParticle(p, width, height).y == p.y + p.vy
  {
  }

  /** One shape coordinate and its velocity on one axis. */
  datatype Axis = Axis(pos: real, vel: real)

  /** A coordinate beyond the margin on an axis of length `extent`. */
  predicate OutsideMargin(pos: real, extent: real)
  {
    pos < -Margin || pos > extent + Margin
  }

  /** One frame of a shape on one axis: it moves by its velocity, and the
      velocity is reversed iff the new position is beyond the margin. The
      position itself is never clamped and the speed never changes. */
  function BounceAxis(a: Axis, extent: real): (b: Axis)
    ensures b.pos == a.pos + a.vel
    ensures OutsideMargin(b.pos, extent) ==> b.vel == -a.vel
    ensures !OutsideMargin(b.pos, extent) ==> b.vel == a.vel
    ensures Abs(b.vel) == Abs(a.vel)
  {
    var pos := a.pos + a.vel;
    Axis(pos, if OutsideMargin(pos, extent) then -a.vel else a.vel)
  }

  /** Where a shape may be on one axis between frames: within the margin, or
      at most one step beyond it and heading back. */
  predicate Contained(a: Axis, extent: real)
  {
    (-Margin <= a.pos <= extent + Margin)
    || (a.pos < -Margin && a.vel > 0.0 && a.pos + a.vel >= -Margin)
    || (a.pos > extent + Margin && a.vel < 0.0 && a.pos + a.vel <= extent + Margin)
  }

  /** A contained shape never strays more than one step past the margin. */
  lemma ContainedBounds(a: Axis, extent: real)
    requires extent >= 0.0
    requires Contained(a, extent)
    ensures -Margin - Abs(a.vel) <= a.pos <= extent + Margin + Abs(a.vel)
  {
  }

  /** One frame keeps a shape contained, whatever its speed. */
  lemma BounceKeepsContained(a: Axis, extent: real)
    requires extent >= 0.0
    requires Contained(a, extent)
    ensures Contained(BounceAxis(a, extent), extent)
  {
  }

  /** One frame of a shape: both axes bounce and the angle advances by the
      turning speed, with no reduction modulo a full turn. */
  function StepShape(s: Shape, width: nat, height: nat): (t: Shape)
    ensures Axis(t.x, t.vx) == BounceAxis(Axis(s.x, s.vx), width as real)
    ensures Axis(t.y, t.vy) == BounceAxis(Axis(s.y, s.vy), height as real)
    ensures t.rotation == s.rotation + s.rotationSpeed
    ensures t.size == s.size && t.rotationSpeed == s.rotationSpeed && t.hue == s.hue && t.alpha == s.alpha
  {
    var ax := BounceAxis(Axis(s.x, s.vx), width as real);
    var ay := BounceAxis(Axis(s.y, s.vy), height as real);
    s.(x := ax.pos, vx := ax.vel, y := ay.pos, vy := ay.vel, rotation := s.rotation + s.rotationSpeed)
  }

  /** A shape contained on both axes. */
  predicate ShapeContained(s: Shape, width: nat, height: nat)
  {
    Contained(Axis(s.x, s.vx), width as real) && Contained(Axis(s.y, s.vy), height as real)
  }

  /** A particle on the canvas. */
  predicate OnCanvas(p: Particle, width: nat, height: nat)
  {
    0.0 <= p.x <= width as real && 0.0 <= p.y <= height as real
  }

  /** Everything the animation keeps between frames. */
  datatype Scene = Scene(width: nat, height: nat, shapes: seq<Shape>, particles: seq<Particle>)

  /** The scene holds six contained shapes and fifteen particles on the canvas. */
  predicate WellFormed(sc: Scene)
  {
    |sc.shapes| == ShapeCount && |sc.particles| == ParticleCount
    && (forall i :: 0 <= i < |sc.shapes| ==> ShapeContained(sc.shapes[i], sc.width, sc.height))
    && (forall i :: 0 <= i < |sc.particles| ==> OnCanvas(sc.particles[i], sc.width, sc.height))
  }

  /** The scene the effect builds for a `width` by `height` canvas from the
      draws it makes: six shapes, then fifteen particles. */
  function NewScene(width: nat, height: nat, sd: seq<ShapeDraws>, pd: seq<ParticleDraws>): (sc: Scene)
    requires |sd| == ShapeCount && |pd| == ParticleCount
    requires forall i :: 0 <= i < |sd| ==> ValidShapeDraws(sd[i])
    requires forall i :: 0 <= i < |pd| ==> ValidParticleDraws(pd[i])
    ensures WellFormed(sc)
    ensures sc.width == width && sc.height == height
    ensures forall i :: 0 <= i < |sc.shapes| ==> sc.shapes[i] == NewShape(sd[i], width, height)
    ensures forall i :: 0 <= i < |sc.particles| ==> sc.particles[i] == NewParticle(pd[i], width, height)
  {
    Scene(width, height,
      seq(|sd|, i requires 0 <= i < |sd| => NewShape(sd[i], width, height)),
      seq(|pd|, i requires 0 <= i < |pd| => NewParticle(pd[i], width, height)))
  }

  /** One animation frame: every particle, then every shape, takes one step. */
  function Frame(sc: Scene): (next: Scene)
    ensures next.width == sc.width && next.height == sc.height
    ensures |next.shapes| == |sc.shapes| && |next.particles| == |sc.particles|
    ensures forall i :: 0 <= i < |next.shapes| ==> next.shapes[i] == StepShape(sc.shapes[i], sc.width, sc.height)
    ensures forall i :: 0 <= i < |next.particles| ==>
      next.particles[i] == StepParticle(sc.particles[i], sc.width, sc.height)
    ensures forall i :: 0 <= i < |next.particles| ==> OnCanvas(next.particles[i], sc.width, sc.height)
    ensures forall i :: 0 <= i < |next.shapes| ==>
      next.shapes[i].rotation == sc.shapes[i].rotation + sc.shapes[i].rotationSpeed
  {
    Scene(sc.width, sc.height,
      seq(|sc.shapes|, i requires 0 <= i < |sc.shapes| => StepShape(sc.shapes[i], sc.width, sc.height)),
      seq(|sc.particles|, i requires 0 <= i < |sc.particles| => StepParticle(sc.particles[i], sc.width, sc.height)))
  }

  /** A frame keeps the scene well formed. */
  lemma FrameKeepsWellFormed(sc: Scene)
    requires WellFormed(sc)
    ensures WellFormed(Frame(sc))
  {
    var next := Frame(sc);
    forall i | 0 <= i < |next.shapes|
      ensures ShapeContained(next.shapes[i], sc.width, sc.height)
    {
      var s := sc.shapes[i];
      assert ShapeContained(s, sc.width, sc.height);
      BounceKeepsContained(Axis(s.x, s.vx), sc.width as real);
      BounceKeepsContained(Axis(s.y, s.vy), sc.height as real);
    }
  }

  /** The scene after `n` frames. */
  function Frames(sc: Scene, n: nat): Scene
    decreases n
  {
    if n == 0 then sc else Frames(Frame(sc), n - 1)
  }

  /** However many frames run, the scene stays well formed. */
  lemma {:induction false} FramesKeepWellFormed(sc: Scene, n: nat)
    requires WellFormed(sc)
    ensures WellFormed(Frames(sc, n))
    ensures Frames(sc, n).width == sc.width && Frames(sc, n).height == sc.height
    decreases n
  {
    if n > 0 {
      FrameKeepsWellFormed(sc);
      FramesKeepWellFormed(Frame(sc), n - 1);
    }
  }

  /** After `n` frames every shape has turned by exactly `n` times its
      turning speed: the angle is never brought back below a full turn. */
  lemma {:induction false} RotationAccumulates(sc: Scene, n: nat, i: nat)
    requires i < |sc.shapes|
    ensures |Frames(sc, n).shapes| == |sc.shapes|
    ensures Frames(sc, n).shapes[i].rotation == sc.shapes[i].rotation + n as real * sc.shapes[i].rotationSpeed
    ensures Frames(sc, n).shapes[i].rotationSpeed == sc.shapes[i].rotationSpeed
    decreases n
  {
    if n > 0 {
      RotationAccumulates(Frame(sc), n - 1, i);
    }
  }

  /** From any fresh scene, no shape ever gets more than 50.15 pixels beyond
      a canvas edge, and the counts stay at six shapes and fifteen particles. */
  lemma ShapesStayNearCanvas(width: nat, height: nat, sd: seq<ShapeDraws>, pd: seq<ParticleDraws>, n: nat, i: nat)
    requires |sd| == ShapeCount && |pd| == ParticleCount
    requires forall k :: 0 <= k < |sd| ==> ValidShapeDraws(sd[k])
    requires forall k :: 0 <= k < |pd| ==> ValidParticleDraws(pd[k])
    requires i < ShapeCount
    ensures var sc := Frames(NewScene(width, height, sd, pd), n);
      |sc.shapes| == ShapeCount && |sc.particles| == ParticleCount
      && -50.15 <= sc.shapes[i].x <= width as real + 50.15
      && -50.15 <= sc.shapes[i].y <= height as real + 50.15
  {
    var sc0 := NewScene(width, height, sd, pd);
    var sc := Frames(sc0, n);
    FramesKeepWellFormed(sc0, n);
    SpeedPreserved(sc0, n, i);
    var s := sc.shapes[i];
    assert ShapeContained(s, width, height);
    ContainedBounds(Axis(s.x, s.vx), width as real);
    ContainedBounds(Axis(s.y, s.vy), height as real);
  }

  /** Frames never change a shape's speed on either axis. */
  lemma {:induction false} SpeedPreserved(sc: Scene, n: nat, i: nat)
    requires i < |sc.shapes|
    ensures |Frames(sc, n).shapes| == |sc.shapes|
    ensures Abs(Frames(sc, n).shapes[i].vx) == Abs(sc.shapes[i].vx)
    ensures Abs(Frames(sc, n).shapes[i].vy) == Abs(sc.shapes[i].vy)
    decreases n
  {
    if n > 0 {
      SpeedPreserved(Frame(sc), n - 1, i);
    }
  }

  // ---------------------------------------------------------------------
  // Starting and stopping the frame loop.
  //
  // The effect asks the browser for a frame and keeps the id it gets back;
  // every frame asks for the next one. `scheduled` is the id of the frame
  // the browser will run next, if any; ids are handed out in increasing
  // order from `nextId`.

  datatype LoopState = LoopState(nextId: nat, scheduled: Option<nat>, kept: nat)

  /** The effect starts the loop and keeps the id of its first request. */
  function StartLoop(s: LoopState): (t: LoopState)
    ensures t.scheduled == Some(s.nextId) && t.kept == s.nextId && t.nextId == s.nextId + 1
  {
    LoopState(s.nextId + 1, Some(s.nextId), s.nextId)
  }

  /** A frame runs and requests the next one under a new id. As written, the
      id kept for cleanup stays that of the first request. */
  function FrameAsWritten(s: LoopState): (t: LoopState)
    ensures s.scheduled.Some? ==> t.scheduled == Some(s.nextId) && t.nextId == s.nextId + 1
    ensures s.scheduled.None? ==> t == s
    ensures t.kept == s.kept
  {
    if s.scheduled.Some? then LoopState(s.nextId + 1, Some(s.nextId), s.kept) else s
  }

  /** The cleanup cancels the kept id; cancelling an id that is not the one
      scheduled does nothing. */
  function Cleanup(s: LoopState): (t: LoopState)
    ensures s.scheduled == Some(s.kept) ==> t.scheduled.None?
    ensures s.scheduled != Some(s.kept) ==> t == s
  {
    if s.scheduled == Some(s.kept) then s.(scheduled := None) else s
  }

  /** As written, once a single frame has run the cleanup cancels an id that
      has already been used, and the loop keeps running after the effect is
      torn down (for example on every window resize). */
  lemma CleanupAfterFrameMissesLoop(s: LoopState)
    ensures Cleanup(FrameAsWritten(StartLoop(s))).scheduled.Some?
  {
  }

  /** A frame that also records the new request's id for the cleanup. */
  function FrameKeepingId(s: LoopState): (t: LoopState)
    ensures s.scheduled.Some? ==> t.scheduled == Some(s.nextId) && t.kept == s.nextId && t.nextId == s.nextId + 1
    ensures s.scheduled.None? ==> t == s
  {
    if s.scheduled.Some? then LoopState(s.nextId + 1, Some(s.nextId), s.nextId) else s
  }

  function FramesKeepingId(s: LoopState, n: nat): LoopState
    decreases n
  {
    if n == 0 then s else FramesKeepingId(FrameKeepingId(s), n - 1)
  }

  /** With the id kept up to date, whatever frame is scheduled is the one the
      cleanup cancels. */
  lemma {:induction false} KeptIdIsScheduled(s: LoopState, n: nat)
    requires s.scheduled.Some? ==> s.scheduled == Some(s.kept)
    ensures var t := FramesKeepingId(s, n); t.scheduled.Some? ==> t.scheduled == Some(t.kept)
    decreases n
  {
    if n > 0 {
      KeptIdIsScheduled(FrameKeepingId(s), n - 1);
    }
  }

  /** With the id kept up to date, the cleanup stops the loop however many
      frames have run. */
  lemma CleanupStopsLoop(s: LoopState, n: nat)
    ensures Cleanup(FramesKeepingId(StartLoop(s), n)).scheduled.None?
  {
    KeptIdIsScheduled(StartLoop(s), n);
  }
}

=== FILE: seqs.dfy ===
/**
 * Sequence utilities shared by the portfolio pages: the `Array.prototype.filter`
 * used by every listing, order-preserving sublists, and the first-occurrence
 * de-duplication that `new Set(array)` performs.
 */
module Seqs {

  /** `r` is obtained from `s` by deleting elements; the survivors keep their order.
      Greedy matching is complete for subsequences, so the definition matches
      the head of `r` against the first equal element of `s`. */
  ghost predicate Sublist<T>(r: seq<T>, s: seq<T>)
    decreases |s|
  {
    if |r| == 0 then true
    else if |s| == 0 then false
    else if r[0] == s[0] then Sublist(r[1..], s[1..])
    else Sublist(r, s[1..])
  }

  /** Every element occurs at most once. */
  ghost predicate NoDup<T>(s: seq<T>)
  {
    forall i, j :: 0 <= i < j < |s| ==> s[i] != s[j]
  }

  /** `Array.prototype.filter(p)`: the elements of `s` that satisfy `p`, in their
      original order and with their original multiplicities. */
  function Filter<T(!new)>(s: seq<T>, p: T -> bool): (r: seq<T>)
    ensures |r| <= |s|
    ensures forall i :: 0 <= i < |r| ==> p(r[i])
    ensures Sublist(r, s)
  {
    if |s| == 0 then []
    else
      assert s == [s[0]] + s[1..];
      var rest := Filter(s[1..], p);
      if p(s[0]) then [s[0]] + rest else rest
  }

  /** An element survives filtering iff it occurs in the list and passes. */
  lemma {:induction false} FilterMembership<T(!new)>(s: seq<T>, p: T -> bool)
    ensures forall x :: x in Filter(s, p) <==> x in s && p(x)
  {
    if |s| > 0 {
      assert s == [s[0]] + s[1..];
      FilterMembership(s[1..], p);
    }
  }

  /** Filtering keeps every passing element as often as it occurs, and no
      other element. */
  lemma {:induction false} FilterMultiset<T(!new)>(s: seq<T>, p: T -> bool, x: T)
    ensures multiset(Filter(s, p))[x] == if p(x) then multiset(s)[x] else 0
  {
    if |s| > 0 {
      assert s == [s[0]] + s[1..];
      FilterMultiset(s[1..], p, x);
    }
  }

  /** Every element that survives filtering occurs in the result exactly as
      often as in the input. */
  lemma FilterKeepsMultiplicity<T(!new)>(s: seq<T>, p: T -> bool)
    ensures forall x :: x in Filter(s, p) ==> multiset(Filter(s, p))[x] == multiset(s)[x]
  {
    FilterMembership(s, p);
    forall x | x in Filter(s, p)
      ensures multiset(Filter(s, p))[x] == multiset(s)[x]
    {
      FilterMultiset(s, p, x);
    }
  }

  /** Two predicates that split the elements of `s` between them filter it
      into two lists that together hold every element exactly as often as `s`. */
  lemma {:induction false} FilterPartition<T(!new)>(s: seq<T>, p: T -> bool, q: T -> bool)
    requires forall i :: 0 <= i < |s| ==> p(s[i]) != q(s[i])
    ensures multiset(Filter(s, p)) + multiset(Filter(s, q)) == multiset(s)
  {
    if |s| > 0 {
      var t := s[1..];
      assert forall i :: 0 <= i < |t| ==> t[i] == s[i + 1];
      FilterPartition(t, p, q);
      assert s == [s[0]] + t;
    }
  }

  /** Filtering keeps everything exactly when every element passes. */
  lemma {:induction false} FilterAllPass<T(!new)>(s: seq<T>, p: T -> bool)
    requires forall i :: 0 <= i < |s| ==> p(s[i])
    ensures Filter(s, p) == s
  {
    if |s| > 0 {
      FilterAllPass(s[1..], p);
    }
  }

  /** Filtering keeps nothing exactly when no element passes. */
  lemma {:induction false} FilterNonePass<T(!new)>(s: seq<T>, p: T -> bool)
    requires forall i :: 0 <= i < |s| ==> !p(s[i])
    ensures Filter(s, p) == []
  {
    if |s| > 0 {
      FilterNonePass(s[1..], p);
    }
  }

  /** Filtering an already-filtered list with the same predicate changes nothing. */
  lemma FilterIdempotent<T(!new)>(s: seq<T>, p: T -> bool)
    ensures Filter(Filter(s, p), p) == Filter(s, p)
  {
    FilterAllPass(Filter(s, p), p);
  }

  /** Two predicates that agree on the elements of `s` filter it identically. */
  lemma {:induction false} FilterExtensional<T(!new)>(s: seq<T>, p: T -> bool, q: T -> bool)
    requires forall i :: 0 <= i < |s| ==> p(s[i]) == q(s[i])
    ensures Filter(s, p) == Filter(s, q)
  {
    if |s| > 0 {
      FilterExtensional(s[1..], p, q);
    }
  }

  /** Index of the first occurrence of `x` in `s`. */
  function FirstIndex<T(==)>(s: seq<T>, x: T): (i: nat)
    requires x in s
    ensures i < |s| && s[i] == x
    ensures forall j :: 0 <= j < i ==> s[j] != x
  {
    if s[0] == x then 0 else 1 + FirstIndex(s[1..], x)
  }

  /** The first occurrence of an element of a prefix lies in that prefix. */
  lemma FirstIndexPrefix<T>(s: seq<T>, n: nat, x: T)
    requires n <= |s| && x in s[..n]
    ensures x in s && FirstIndex(s, x) == FirstIndex(s[..n], x)
  {
    var k := FirstIndex(s[..n], x);
    assert s[k] == x;
    var i := FirstIndex(s, x);
    assert i <= k;
    assert s[..n][i] == x;
  }

  /** `Array.from(new Set(s))`: each distinct element once, in the order in
      which it first occurs in `s` (a JavaScript `Set` iterates in insertion
      order and ignores re-insertions). */
  function Dedup<T(==,!new)>(s: seq<T>): (r: seq<T>)
    ensures NoDup(r)
    ensures forall x :: x in r <==> x in s
    ensures forall i, j :: 0 <= i < j < |r| ==> FirstIndex(s, r[i]) < FirstIndex(s, r[j])
    decreases |s|
  {
    if |s| == 0 then []
    else
      var init := s[..|s| - 1];
      var last := s[|s| - 1];
      var d := Dedup(init);
      assert forall x :: x in s <==> x in init || x == last by {
        assert s == init + [last];
      }
      forall k | 0 <= k < |d|
        ensures FirstIndex(s, d[k]) == FirstIndex(init, d[k])
      {
        FirstIndexPrefix(s, |s| - 1, d[k]);
      }
      if last in d then d
      else
        var r := d + [last];
        assert last !in init;
        assert FirstIndex(s, last) == |s| - 1;
        assert forall k :: 0 <= k < |d| ==> FirstIndex(s, r[k]) < |s| - 1 by {
          forall k | 0 <= k < |d|
            ensures FirstIndex(s, r[k]) < |s| - 1
          {
            assert r[k] == d[k];
            assert d[k] in init;
          }
        }
        r
  }
}

=== FILE: text.dfy ===
/**
 * The JavaScript string operations the pages rely on: `toLowerCase`,
 * `toUpperCase`, `includes` and `startsWith`. Case mapping covers the ASCII
 * letters only.
 */
module Text {

  predicate IsUpper(c: char) { 'A' <= c <= 'Z' }

  predicate IsLower(c: char) { 'a' <= c <= 'z' }

  function LowerChar(c: char): (d: char)
    ensures IsUpper(c) ==> IsLower(d) && d as int == c as int + 32
    ensures !IsUpper(c) ==> d == c
    ensures !IsUpper(d)
  {
    if IsUpper(c) then (c as int + 32) as char else c
  }

  function UpperChar(c: char): (d: char)
    ensures IsLower(c) ==> IsUpper(d) && d as int == c as int - 32
    ensures !IsLower(c) ==> d == c
    ensures !IsLower(d)
  {
    if IsLower(c) then (c as int - 32) as char else c
  }

  /** `s.toLowerCase()`: same length, each capital replaced by its own
      lower-case letter, every other character kept. */
  function Lower(s: string): (r: string)
    ensures |r| == |s|
    ensures forall i :: 0 <= i < |s| && IsUpper(s[i]) ==> IsLower(r[i]) && r[i] as int == s[i] as int + 32
    ensures forall i :: 0 <= i < |s| && !IsUpper(s[i]) ==> r[i] == s[i]
    ensures forall i :: 0 <= i < |r| ==> !IsUpper(r[i])
  {
    seq(|s|, i requires 0 <= i < |s| => LowerChar(s[i]))
  }

  /** `s.toUpperCase()`: same length, each lower-case letter replaced by its
      own capital, every other character kept. */
  function Upper(s: string): (r: string)
    ensures |r| == |s|
    ensures forall i :: 0 <= i < |s| && IsLower(s[i]) ==> IsUpper(r[i]) && r[i] as int == s[i] as int - 32
    ensures forall i :: 0 <= i < |s| && !IsLower(s[i]) ==> r[i] == s[i]
    ensures forall i :: 0 <= i < |r| ==> !IsLower(r[i])
  {
    seq(|s|, i requires 0 <= i < |s| => UpperChar(s[i]))
  }

  /** Upper-casing forgets any earlier lower-casing: the two mappings agree
      on which characters are letters. */
  lemma {:induction false} UpperAfterLower(s: string)
    ensures Upper(Lower(s)) == Upper(s)
  {
    forall i | 0 <= i < |s|
      ensures Upper(Lower(s))[i] == Upper(s)[i]
    {
      assert Lower(s)[i] == LowerChar(s[i]);
    }
  }

  /** Lower-casing twice is lower-casing once. */
  lemma LowerIdempotent(s: string)
    ensures Lower(Lower(s)) == Lower(s)
  {
  }

  /** `needle` occurs in `hay` starting at index `i`. */
  ghost predicate OccursAt(hay: string, needle: string, i: int)
  {
    0 <= i && i + |needle| <= |hay| && hay[i..i + |needle|] == needle
  }

  /** `hay.includes(needle)`: true iff `needle` occurs somewhere in `hay`. */
  function Includes(hay: string, needle: string): (r: bool)
    ensures r <==> exists i :: OccursAt(hay, needle, i)
    decreases |hay|
  {
    if |needle| > |hay| then
      assert forall i :: !OccursAt(hay, needle, i);
      false
    else if hay[..|needle|] == needle then
      assert OccursAt(hay, needle, 0);
      true
    else
      var r := Includes(hay[1..], needle);
      assert r ==> exists i :: OccursAt(hay, needle, i) by {
        if r {
          var k :| OccursAt(hay[1..], needle, k);
          assert hay[1..][k..k + |needle|] == hay[k + 1..k + 1 + |needle|];
          assert OccursAt(hay, needle, k + 1);
        }
      }
      assert (exists i :: OccursAt(hay, needle, i)) ==> r by {
        if exists i :: OccursAt(hay, needle, i) {
          var k :| OccursAt(hay, needle, k);
          assert k != 0;
          assert hay[1..][k - 1..k - 1 + |needle|] == hay[k..k + |needle|];
          assert OccursAt(hay[1..], needle, k - 1);
        }
      }
      r
  }

  /** Every string includes the empty string. */
  lemma IncludesEmpty(hay: string)
    ensures Includes(hay, "")
  {
    assert OccursAt(hay, "", 0);
  }

  /** `s.startsWith(prefix)`: `s` is at least as long as `prefix` and agrees
      with it at every index of `prefix`. */
  function StartsWith(s: string, prefix: string): (r: bool)
    ensures r <==> |prefix| <= |s| && forall i :: 0 <= i < |prefix| ==> s[i] == prefix[i]
  {
    |prefix| <= |s| && s[..|prefix|] == prefix
  }

  /** A prefix of a prefix is a prefix. */
  lemma StartsWithTransitive(s: string, p: string, q: string)
    requires StartsWith(s, p) && StartsWith(p, q)
    ensures StartsWith(s, q)
  {
    assert s[..|q|] == s[..|p|][..|q|];
  }

  /** Two strings that differ at some index below both lengths cannot both
      be prefixes of one string. */
  lemma StartsWithDisjoint(s: string, p: string, q: string, k: nat)
    requires k < |p| && k < |q| && p[k] != q[k]
    ensures !(StartsWith(s, p) && StartsWith(s, q))
  {
    if StartsWith(s, p) {
      assert s[..|p|][k] == s[k];
      assert s[k] != q[k];
      assert |q| > |s| || s[..|q|][k] != q[k];
    }
  }

  predicate IsDigit(c: char) { '0' <= c <= '9' }

  function DigitChar(d: nat): (c: char)
    requires d < 10
    ensures IsDigit(c) && c as int - '0' as int == d
  {
    ('0' as int + d) as char
  }

  /** The value of a run of decimal digits, most significant first. */
  function DecimalValue(s: string): nat
    requires forall i :: 0 <= i < |s| ==> IsDigit(s[i])
  {
    if |s| == 0 then 0
    else
      assert IsDigit(s[|s| - 1]);
      10 * DecimalValue(s[..|s| - 1]) + (s[|s| - 1] as int - '0' as int)
  }

  /** JavaScript's conversion of a non-negative integer to text: a non-empty
      run of digits, with no leading zero unless the number is 0. */
  function DecimalString(n: nat): (s: string)
    ensures |s| >= 1
    ensures forall i :: 0 <= i < |s| ==> IsDigit(s[i])
    ensures s[0] == '0' ==> n == 0
  {
    if n < 10 then [DigitChar(n)] else DecimalString(n / 10) + [DigitChar(n % 10)]
  }

  /** Reading the digits back gives the number that was written. */
  lemma {:induction false} DecimalRoundTrip(n: nat)
    ensures DecimalValue(DecimalString(n)) == n
  {
    if n >= 10 {
      var s := DecimalString(n);
      assert s[..|s| - 1] == DecimalString(n / 10);
      DecimalRoundTrip(n / 10);
    }
  }
}

=== FILE: transcendence.dfy ===
/**
 * The Transcendence project listing (`src/pages/chingu-trans.jsx`): a
 * free-text search over title, description and tags combined with a phase
 * drop-down, the phase chip style table, and the results summary.
 */
module Transcendence {
  import opened Wrappers
  import opened Seqs
  import opened Text

  datatype Project = Project(
    id: nat,
    title: string,
    description: string,
    category: string,
    phase: string,
    tags: seq<string>)

  const ProjectData: seq<Project> := [
    Project(1, "Modern Residential Complex",
      "Sustainable housing development with innovative green building techniques and smart home integration.",
      "Residential", "Construction", ["Sustainability", "Smart Home", "Modern Design"]),
    Project(2, "Corporate Headquarters",
      "State-of-the-art office building featuring biophilic design principles and collaborative workspaces.",
      "Commercial", "Design Development", ["Biophilic", "Collaborative", "Corporate"]),
    Project(3, "Cultural Arts Center",
      "Multi-purpose venue combining traditional architectural elements with contemporary performance spaces.",
      "Cultural", "Schematic Design", ["Cultural", "Performance", "Heritage"]),
    Project(4, "Urban Mixed-Use Development",
      "Integrated community space featuring retail, residential, and public amenities in dense urban setting.",
      "Mixed-Use", "Construction Documents", ["Urban", "Mixed-Use", "Community"]),
    Project(5, "Educational Campus Expansion",
      "Learning-focused environments with flexible spaces designed for future pedagogical evolution.",
      "Educational", "Programming", ["Education", "Flexible", "Future-Ready"]),
    Project(6, "Healthcare Innovation Hub",
      "Healing-centered design integrating advanced medical technology with patient-focused environments.",
      "Healthcare", "Post-Occupancy", ["Healthcare", "Innovation", "Healing"])
  ]

  /** The drop-down value that disables phase filtering. */
  const AllPhases: string := "All Phases"

  const Phases: seq<string> := [AllPhases, "Programming", "Schematic Design",
    "Design Development", "Construction Documents", "Construction", "Post-Occupancy"]

  datatype ChipColor = Info | Primary | Secondary | Warning | Error | Success | Default
  datatype ChipVariant = Outlined | Filled
  datatype ChipStyle = ChipStyle(color: ChipColor, variant: ChipVariant)

  const PhaseColors: map<string, ChipStyle> := map[
    "Programming" := ChipStyle(Info, Outlined),
    "Schematic Design" := ChipStyle(Primary, Filled),
    "Design Development" := ChipStyle(Secondary, Outlined),
    "Construction Documents" := ChipStyle(Warning, Filled),
    "Construction" := ChipStyle(Error, Filled),
    "Post-Occupancy" := ChipStyle(Success, Filled)
  ]

  /** The style of a project's phase chip: the table entry when there is one,
      otherwise the outlined default chip. */
  function PhaseStyle(phase: string): (st: ChipStyle)
    ensures phase == "Programming" ==> st == ChipStyle(Info, Outlined)
    ensures phase == "Schematic Design" ==> st == ChipStyle(Primary, Filled)
    ensures phase == "Design Development" ==> st == ChipStyle(Secondary, Outlined)
    ensures phase == "Construction Documents" ==> st == ChipStyle(Warning, Filled)
    ensures phase == "Construction" ==> st == ChipStyle(Error, Filled)
    ensures phase == "Post-Occupancy" ==> st == ChipStyle(Success, Filled)
    ensures phase !in PhaseColors ==> st == ChipStyle(Default, Outlined)
    ensures phase in PhaseColors ==> st.color != Default
  {
    if phase in PhaseColors then PhaseColors[phase] else ChipStyle(Default, Outlined)
  }

  /** Every selectable phase and every project's phase has its own chip style,
      so the page never shows the fallback chip; 'All Phases' has none. */
  lemma PhasesAllStyled()
    ensures forall i :: 1 <= i < |Phases| ==> PhaseStyle(Phases[i]).color != Default
    ensures forall p :: p in ProjectData ==> PhaseStyle(p.phase).color != Default
    ensures PhaseStyle(AllPhases) == ChipStyle(Default, Outlined)
  {
    forall i | 1 <= i < |Phases|
      ensures PhaseStyle(Phases[i]).color != Default
    {
      PhaseListed(i);
    }
    forall p | p in ProjectData
      ensures PhaseStyle(p.phase).color != Default
    {
      var k :| 0 <= k < |ProjectData| && ProjectData[k] == p;
      ProjectPhaseListed(k);
    }
    assert AllPhases !in PhaseColors;
  }

  /** Each drop-down entry after 'All Phases' is a key of the colour table. */
  lemma PhaseListed(i: nat)
    requires 1 <= i < |Phases|
    ensures Phases[i] in PhaseColors
  {
    assert Phases[i] in PhaseColors.Keys;
  }

  /** Each project's phase is one of the drop-down entries after 'All Phases'. */
  lemma ProjectPhaseListed(k: nat)
    requires k < |ProjectData|
    ensures ProjectData[k].phase in PhaseColors
  {
    assert k == 0 || k == 1 || k == 2 || k == 3 || k == 4 || k == 5;
    assert ProjectData[0].phase == Phases[5];
    assert ProjectData[1].phase == Phases[3];
    assert ProjectData[2].phase == Phases[2];
    assert ProjectData[3].phase == Phases[4];
    assert ProjectData[4].phase == Phases[1];
    assert ProjectData[5].phase == Phases[6];
    PhaseListed(1); PhaseListed(2); PhaseListed(3);
    PhaseListed(4); PhaseListed(5); PhaseListed(6);
  }

  /** The six phases of the drop-down each get a different chip colour. */
  lemma EachPhaseOwnColor(i: nat, j: nat)
    requires 1 <= i < j < |Phases|
    ensures PhaseStyle(Phases[i]).color != PhaseStyle(Phases[j]).color
  {
    assert Phases[1] == "Programming" && Phases[2] == "Schematic Design";
    assert Phases[3] == "Design Development" && Phases[4] == "Construction Documents";
    assert Phases[5] == "Construction" && Phases[6] == "Post-Occupancy";
  }

  /** Some tag of `tags`, lower-cased, includes `term` (`tags.some(...)`). */
  predicate SomeTagIncludes(tags: seq<string>, term: string)
  {
    exists i :: 0 <= i < |tags| && Includes(Lower(tags[i]), term)
  }

  /** The search half of the page's filter predicate. */
  predicate MatchesSearch(p: Project, searchTerm: string)
  {
    var t := Lower(searchTerm);
    Includes(Lower(p.title), t) || Includes(Lower(p.description), t) || SomeTagIncludes(p.tags, t)
  }

  /** The phase half of the page's filter predicate. */
  predicate MatchesPhase(p: Project, selectedPhase: string)
  {
    selectedPhase == AllPhases || p.phase == selectedPhase
  }

  predicate Keep(p: Project, searchTerm: string, selectedPhase: string)
  {
    MatchesSearch(p, searchTerm) && MatchesPhase(p, selectedPhase)
  }

  /** `filteredProjects`: the projects matching both the search and the phase,
      in their original order. */
  function FilteredProjects(projects: seq<Project>, searchTerm: string, selectedPhase: string): (r: seq<Project>)
    ensures forall p :: p in r <==>
      p in projects
      && (   (exists i :: OccursAt(Lower(p.title), Lower(searchTerm), i))
          || (exists i :: OccursAt(Lower(p.description), Lower(searchTerm), i))
          || (exists k :: 0 <= k < |p.tags| && exists i :: OccursAt(Lower(p.tags[k]), Lower(searchTerm), i)))
      && (selectedPhase == AllPhases || p.phase == selectedPhase)
    ensures forall p :: p in r ==> multiset(r)[p] == multiset(projects)[p]
    ensures Sublist(r, projects)
  {
    FilterMembership(projects, (p: Project) => Keep(p, searchTerm, selectedPhase));
    FilterKeepsMultiplicity(projects, (p: Project) => Keep(p, searchTerm, selectedPhase));
    Filter(projects, (p: Project) => Keep(p, searchTerm, selectedPhase))
  }

  /** An empty search term matches every project: every string includes "". */
  lemma EmptySearchMatchesAll(p: Project)
    ensures MatchesSearch(p, "")
  {
    IncludesEmpty(Lower(p.title));
  }

  /** With an empty search and 'All Phases' the full list is shown. */
  lemma EmptySearchAllPhases(projects: seq<Project>)
    ensures FilteredProjects(projects, "", AllPhases) == projects
  {
    forall i | 0 <= i < |projects|
      ensures Keep(projects[i], "", AllPhases)
    {
      EmptySearchMatchesAll(projects[i]);
    }
    FilterAllPass(projects, (p: Project) => Keep(p, "", AllPhases));
  }

  /** With an empty search, choosing a phase keeps exactly the projects in that
      phase, in order. */
  lemma EmptySearchByPhase(projects: seq<Project>, phase: string)
    requires phase != AllPhases
    ensures FilteredProjects(projects, "", phase)
         == Filter(projects, (p: Project) => p.phase == phase)
  {
    forall i | 0 <= i < |projects|
    {
      EmptySearchMatchesAll(projects[i]);
    }
    FilterExtensional(projects, (p: Project) => Keep(p, "", phase), (p: Project) => p.phase == phase);
  }

  /** Search is case-insensitive: two terms with the same lower-case form give
      the same result, e.g. a term and its lower-cased form. */
  lemma SearchCaseInsensitive(projects: seq<Project>, t1: string, t2: string, phase: string)
    requires Lower(t1) == Lower(t2)
    ensures FilteredProjects(projects, t1, phase) == FilteredProjects(projects, t2, phase)
  {
    FilterExtensional(projects, (p: Project) => Keep(p, t1, phase), (p: Project) => Keep(p, t2, phase));
  }

  /** Lower-casing the typed term never changes the listing. */
  lemma SearchIgnoresTermCase(projects: seq<Project>, term: string, phase: string)
    ensures FilteredProjects(projects, Lower(term), phase) == FilteredProjects(projects, term, phase)
  {
    LowerIdempotent(term);
    SearchCaseInsensitive(projects, Lower(term), term, phase);
  }

  /** Filtering the filtered list again with the same settings changes nothing. */
  lemma FilterTwiceIsOnce(projects: seq<Project>, term: string, phase: string)
    ensures FilteredProjects(FilteredProjects(projects, term, phase), term, phase)
         == FilteredProjects(projects, term, phase)
  {
    FilterIdempotent(projects, (p: Project) => Keep(p, term, phase));
  }

  /** What the results line and the empty-state panel show. */
  datatype Summary = Summary(count: nat, phaseNote: Option<string>, emptyState: bool)

  /** The "Showing N projects [in P phase]" line and the empty-state panel. */
  function ResultsSummary(projects: seq<Project>, searchTerm: string, selectedPhase: string): (s: Summary)
    ensures s.count <= |projects|
    ensures s.emptyState <==> s.count == 0
    ensures s.emptyState <==> forall p :: p in projects ==> !Keep(p, searchTerm, selectedPhase)
    ensures s.phaseNote.Some? <==> selectedPhase != AllPhases
    ensures s.phaseNote.Some? ==> s.phaseNote.value == selectedPhase
  {
    var n := |FilteredProjects(projects, searchTerm, selectedPhase)|;
    Summary(n, if selectedPhase != AllPhases then Some(selectedPhase) else None, n == 0)
  }

  /** The count shown is the number of cards rendered below it. */
  lemma SummaryCountsCards(projects: seq<Project>, searchTerm: string, selectedPhase: string)
    ensures ResultsSummary(projects, searchTerm, selectedPhase).count
         == |FilteredProjects(projects, searchTerm, selectedPhase)|
  {
  }
}

=== FILE: wrappers.dfy ===
/**
 * Values that may be absent.
 */
module Wrappers {

  /** A JavaScript value that may be `null` or `undefined`. */
  datatype Option<T> = None | Some(value: T)
}
